=== FILE: README.md ===
# GrafoPonderado: Dijkstra's shortest paths, modelled in Dafny

`GrafoPonderado` (in `src/Main.java`) is a weighted graph held as one
adjacency list of `Aresta(destino, peso)` per vertex. Its `dijkstra(origem)`
method computes single-source shortest paths. It uses a
`PriorityQueue<No>` ordered by distance, with lazy deletion: when a shorter
distance is found, a new entry is inserted, and an entry whose vertex is
already visited is skipped when it is polled. Afterwards it prints each
vertex's distance and the path found by walking the predecessor array
`anterior` backwards (`imprimirCaminho`).

The model has one module per concern:

| file | module | what it holds |
|---|---|---|
| graph.dfy | `Graphs` | `Aresta` as `Edge`, the graph, the constructor, `addAresta`, `addArestaBidirecional`, walks |
| queue.dfy | `PriorityQueue` | `No` as `Entry`, `No.compareTo`, `poll` as the removal of some least entry |
| results.dfy | `Results` | distances with an explicit infinity, `imprimirCaminho` as a path function, the meaning of a finished run (`ShortestPaths`) and its consequences |
| steps.dfy | `DijkstraSteps` | the loop state, initialisation, relaxation of one edge and of an adjacency list, processing of a polled vertex |
| invariant.dfy | `DijkstraInvariant` | the loop invariants and the lemmas that each step keeps them |
| dijkstra.dfy | `Dijkstra` | `dijkstra` itself as a loop over the queue |
| examples.dfy | `Examples` | the two graphs `main` builds and the results their runs must print |

The central result is `Dijkstra.Run`. On a graph whose edges lead to
vertices and weigh at least 0, it returns arrays that satisfy
`ShortestPaths`:

- the source has distance 0 and no predecessor;
- a vertex other than the source has a predecessor exactly when its distance is finite;
- every edge out of a reached vertex satisfies the triangle inequality;
- for every reached vertex, the printed predecessor path starts at the source, ends at the vertex, follows edges of the graph and weighs exactly the vertex's distance.

From these facts, `Results` derives that:

- each distance is the least weight of any walk;
- a vertex stays at infinity exactly when no walk reaches it;
- any two runs agree on the distances, whatever the queue's tie-breaking.

`Examples` then shows that both runs in `main` must produce the distances
and paths the program prints.

The Java code throws on bad input and does not return errors; for example, an
index outside the graph raises `ArrayIndexOutOfBoundsException`. This model
follows the code. Where an operation needs a valid index, this appears as a
precondition, and nothing models the exception.

## Model

| member | source | states |
|---|---|---|
| `Graphs.New` | src/Main.java:35-42 | the new graph has `vertices` vertices, no edge at all, and is valid |
| `Graphs.AddEdge` | src/Main.java:45-47 | `addAresta` appends `(destino, peso)` at the end of the list of `origem`; the vertex count and every other list stay unchanged |
| `Graphs.AddEdgeEdges` | src/Main.java:45-47 | after `addAresta` the graph has an edge exactly when it had it before or it is the new edge |
| `Graphs.AddEdgeValid` | src/Main.java:45-47 | a valid graph stays valid after `addAresta` if and only if the new edge's destination is a vertex and its weight is non-negative |
| `Graphs.AddBidirectional` | src/Main.java:50-53 | `addArestaBidirecional` appends `(v2, peso)` to the list of `v1` and `(v1, peso)` to the list of `v2` (both to the same list for a self-loop); other lists are unchanged |
| `Graphs.BidirectionalIsTwoEdges` | src/Main.java:50-53 | the bidirectional insertion equals `addAresta(v1, v2, peso)` followed by `addAresta(v2, v1, peso)` |
| `Graphs.BidirectionalEdges` | src/Main.java:50-53 | afterwards the graph has an edge exactly when it had it before or it is one of the two opposite new edges |
| `PriorityQueue.CompareTo` | src/Main.java:24-27 | `compareTo` returns -1, 0 or 1, negative exactly when this entry's distance is smaller and positive exactly when it is larger; the vertex plays no part |
| `PriorityQueue.MinExists` | src/Main.java:73-74 | a non-empty queue has an entry that is least under `compareTo` |
| `PriorityQueue.Poll` | src/Main.java:74 | `poll` on a non-empty queue returns a least entry and leaves the queue with that one occurrence removed |
| `Results.PathTo` | src/Main.java:119-126 | the printed sequence ends at `destino`, starts at a vertex with predecessor -1, consists of vertex indices, and each vertex's predecessor is the one printed before it |
| `Results.Route` | src/Main.java:104-113 | a vertex at infinity gets no path ("Inalcançável"); a path that is printed is the predecessor chain of the vertex: it ends at it, starts at a vertex without predecessor, and each vertex's predecessor is the one before it |
| `Results.ChainShort` | src/Main.java:119-126 | a predecessor chain never repeats a vertex, so it has at most one vertex per vertex index |
| `Results.PathToComplete` | src/Main.java:119-126 | when the predecessor chain of `destino` fits in the recursion bound, `imprimirCaminho` prints exactly that chain |
| `Results.RouteComplete` | src/Main.java:104-126 | a vertex at a finite distance whose predecessors lead back to a vertex without predecessor gets exactly that chain printed as its path |
| `Results.WalkBound` | src/Main.java:86-90 | an assignment that is 0 at the source and satisfies the relaxation test on every edge out of a reached vertex is at most the weight of every walk from the source |
| `Results.DistanceIsMinimum` | src/Main.java:73-92 | after a run, a vertex's distance is finite if and only if some walk reaches it from the source, and then it is at most every such walk's weight |
| `Results.BelowRelaxed` | src/Main.java:73-92 | the computed distances are the largest assignment that is 0 at the source and satisfies the triangle inequality: any such assignment lies below them |
| `Results.SourceRoute` | src/Main.java:119-122 | the path printed for the source itself is just the source |
| `Results.LastEdgeTight` | src/Main.java:86-88 | the last edge of a walk of optimal weight is tight: its weight equals the difference of the two distances |
| `Results.PredTight` | src/Main.java:86-88 | every predecessor link `anterior[v] = u` is an edge `u -> v` of weight `dist[v] - dist[u]` out of a reached vertex |
| `Results.DistancesUnique` | src/Main.java:73-92 | two results for the same graph and source have equal distances, so neither the queue's tie-breaking nor a second run changes them |
| `DijkstraSteps.CountUnvisitedMark` | src/Main.java:78 | marking an unvisited vertex visited lowers the number of unvisited vertices by one |
| `DijkstraSteps.Start` | src/Main.java:57-71 | every distance is infinity except the source's 0, every predecessor is -1, nothing is visited, and the queue holds only `(origem, 0)` |
| `DijkstraSteps.RelaxEdge` | src/Main.java:82-90 | relaxation fires exactly when the destination is unvisited and `dist[u] + peso` is smaller than its distance, and otherwise leaves the whole state unchanged; it never raises a distance and leaves visited vertices and every vertex other than the edge's destination alone; afterwards the edge satisfies the triangle inequality if it leads to an unvisited vertex; when the destination's distance changes, it is set to `dist[u] + peso` with predecessor `u`, and `(viz, dist[u] + peso)` is added to the queue |
| `DijkstraSteps.RelaxNeighboursChanges` | src/Main.java:86-89 | after the loop over the edges of the visited vertex `u`, a vertex whose distance is unchanged keeps its predecessor, and a vertex whose distance changed has predecessor `u` and a queue entry at its new distance |
| `DijkstraSteps.RelaxNeighboursValue` | src/Main.java:86-87 | a distance the loop over the edges of `u` changed equals `dist[u]` plus the weight of a listed edge to that vertex |
| `DijkstraSteps.RelaxNeighboursQueue` | src/Main.java:86-89 | every entry the loop adds to the queue is `(viz, dist[u] + peso)` for a listed edge `u -> viz` of weight `peso`: nothing else is queued |
| `DijkstraSteps.RelaxNeighbours` | src/Main.java:81-91 | the loop over the adjacency list never raises a distance, leaves visited vertices unchanged, keeps every queued entry, and leaves every listed edge to an unvisited vertex satisfying the triangle inequality; which values change and which entries are added is stated per vertex and per entry by `RelaxNeighboursChanges`, `RelaxNeighboursValue` and `RelaxNeighboursQueue` |
| `DijkstraSteps.ProcessChanges` | src/Main.java:75-91 | after processing the polled vertex `v`, a vertex whose distance is unchanged keeps its predecessor, and a vertex whose distance changed has predecessor `v`, a queue entry at its new distance, and that distance is `dist[v]` plus the weight of an edge from `v` to it |
| `DijkstraSteps.ProcessQueue` | src/Main.java:81-89 | every entry added to the queue while processing `v` is `(viz, dist[v] + peso)` for an edge `v -> viz` of weight `peso` in the graph |
| `DijkstraSteps.Process` | src/Main.java:75-91 | polling an already visited vertex changes nothing; otherwise the vertex becomes visited (one unvisited vertex fewer), no distance rises, the queue only grows, the vertices visited afterwards keep their distance and predecessor, and every edge out of the vertex that leads to an unvisited vertex satisfies the triangle inequality; the changed values, predecessors and added entries are stated by `ProcessChanges` and `ProcessQueue` |
| `DijkstraInvariant.StartInv` | src/Main.java:57-71 | the initial state satisfies the loop invariant |
| `DijkstraInvariant.StaleInv` | src/Main.java:77 | dropping a stale entry keeps the loop invariant |
| `DijkstraInvariant.VisitInv` | src/Main.java:74-78 | marking the polled least vertex visited keeps the invariant of the inner loop, with no edge relaxed yet: no visited vertex is farther than it, and no queued entry is nearer |
| `DijkstraInvariant.RelaxInv` | src/Main.java:82-90 | relaxing one more edge of the vertex being visited keeps the inner-loop invariant |
| `DijkstraInvariant.RelaxAllInv` | src/Main.java:81-91 | relaxing the rest of the adjacency list keeps the inner-loop invariant to the end of the list |
| `DijkstraInvariant.VisitStep` | src/Main.java:74-91 | visiting a least unvisited entry restores the outer loop invariant |
| `DijkstraInvariant.Iteration` | src/Main.java:73-91 | each iteration keeps the loop invariant, and either leaves fewer unvisited vertices or the same number with a shorter queue |
| `DijkstraInvariant.ReachedVisited` | src/Main.java:73 | when the queue is empty, every vertex with a finite distance has been visited |
| `DijkstraInvariant.PredWalk` | src/Main.java:119-126 | from a reached vertex the predecessor walk ends at the source within the visit rank and is a walk of the graph whose weight is the vertex's distance |
| `DijkstraInvariant.FinalResult` | src/Main.java:73-92 | the invariant together with an empty queue gives `ShortestPaths` |
| `Dijkstra.Run` | src/Main.java:56-92 | `dijkstra(origem)` on a valid graph terminates with distances and predecessors satisfying `ShortestPaths` |
| `Examples.CitiesLists` | src/Main.java:146-157 | the nine two-way roads produce the adjacency lists of both directions in call order |
| `Examples.DirectedLists` | src/Main.java:164-175 | the ten one-way edges produce the expected adjacency lists in call order |
| `Examples.CitiesResult` | src/Main.java:146-160 | every shortest-path result for the city network from 0 has distances `[0, 7, 9, 20, 20, 11]` and predecessors `[-1, 0, 0, 2, 5, 2]` |
| `Examples.CityRoutesNear` | src/Main.java:104-126 | the city network's printed paths: `0`, `0 → 1`, `0 → 2` |
| `Examples.CityRoutesFar` | src/Main.java:104-126 | the city network's printed paths: `0 → 2 → 3`, `0 → 2 → 5 → 4`, `0 → 2 → 5` |
| `Examples.RunCities` | src/Main.java:146-160 | `cidades.dijkstra(0)` computes exactly those distances and predecessors |
| `Examples.DirectedResult` | src/Main.java:164-178 | every shortest-path result for the directed graph from 0 has distances `[0, 8, 9, 7, 5]` and predecessors `[-1, 4, 1, 4, 0]` |
| `Examples.DirectedRoutes` | src/Main.java:104-126 | the directed graph's printed paths: `0`, `0 → 4 → 1`, `0 → 4 → 1 → 2`, `0 → 4 → 3`, `0 → 4` |
| `Examples.RunDirected` | src/Main.java:164-178 | `g2.dijkstra(0)` computes exactly those distances and predecessors |

## Left out

- Console output is left out: `imprimirResultados` only formats and prints, `imprimir` prints the graph, and `main` prints headers. What they print is modelled as values: the `Route` paths and the adjacency lists in `Examples`.
- `Integer.MAX_VALUE` and 32-bit arithmetic are left out. Distances are unbounded naturals plus an explicit `Infinity`, so the model has no overflow of `distancias[v] + peso`. For the graphs in `main` no sum comes near 2^31.
- The heap inside `java.util.PriorityQueue` and its order among equally distant entries are left out. `Poll` returns some least entry, and `Results.DistancesUnique` shows that the choice does not affect the distances.
- `Dijkstra.Run`: the requirements that every edge leads to a vertex, every weight is non-negative and `origem` is a vertex are preconditions. The precondition covers every edge of the graph. The Java code checks none of this, and it only reads the adjacency lists of vertices it polls (line 81). So a bad edge out of a vertex the source never reaches is never read: Java finishes normally and prints correct results. An out-of-range destination on an edge out of a reached vertex throws `ArrayIndexOutOfBoundsException`. A negative weight on such an edge can produce wrong distances. The model does not cover graphs with bad edges that are unreachable.
- `Graphs.AddEdge`, `Graphs.AddBidirectional`: an origin outside the graph is a precondition where Java would throw `ArrayIndexOutOfBoundsException`. An invalid destination or negative weight is stored as in Java, and `Graphs.AddEdgeValid` says what that does to validity. When `v1` is a vertex and `v2` is not, Java's `addArestaBidirecional` has already appended `Aresta(v2, peso)` to the list of `v1` (line 51) before line 52 throws. The graph is then left with half an undirected edge; the model's precondition excludes this case rather than modelling the partial insertion.
- `Graphs.New`: the vertex count is a `nat`. A negative count, which makes Java throw `NegativeArraySizeException`, is not modelled.
- `Results.PathTo`: the recursion of `imprimirCaminho` is bounded by a fuel argument and returns `None` when the fuel runs out or a predecessor is not a vertex index. Java would recurse forever or throw in those cases. `Results.PathToComplete` and `Results.ChainShort` show that fuel equal to the vertex count never cuts off a predecessor chain that reaches a vertex without predecessor. For the results of a run, `DijkstraInvariant.PredWalk` shows that every reached vertex has such a chain.
- `DijkstraSteps.Process`: requires the polled vertex to have a finite distance. The loop invariant guarantees this for every queued entry (`DijkstraInvariant.Iteration`), which matches the source, where no vertex at infinity is ever queued.
- `LinkedList` and `Comparable` are modelled as a Dafny sequence and as `CompareTo`. Iteration order over a list is sequence order.

=== FILE: dijkstra.dfy ===
/** `GrafoPonderado.dijkstra`: lazy-deletion Dijkstra over a `PriorityQueue` of
    `(vertex, distance)` entries, with no decrease-key. A stale entry (one whose
    vertex is already visited) is skipped when it is polled, and relaxation only
    targets unvisited neighbours. */
module Dijkstra {
  import opened Graphs
  import opened PriorityQueue
  import opened Results
  import opened DijkstraSteps
  import opened DijkstraInvariant

  /** `dijkstra(origem)`: on a graph whose edges lead to vertices and weigh at
      least 0, the distances and predecessors it computes describe shortest
      paths from `origem` (see `ShortestPaths`). Each iteration either drops a
      stale entry (the queue shrinks) or visits a new vertex (one unvisited
      vertex fewer). */
  method Run(g: Graph, origem: int) returns (dist: seq<Dist>, pred: seq<int>)
    requires ValidGraph(g) && 0 <= origem < g.NumVertices()
    ensures ShortestPaths(g, origem, dist, pred)
  {
    var s := Start(|g.adj|, origem);
    ghost var rank: seq<int> := seq(|g.adj|, _ => 0);
    ghost var count: nat := 0;
    StartInv(g, origem);
    while |s.pq| > 0
      invariant Inv(g, origem, s, rank, count)
      decreases CountUnvisited(s.visited), |s.pq|
    {
      var e, rest := Poll(s.pq);
      var v := e.vertex;
      Iteration(g, origem, s, rank, count, e);
      rank, count := NextRank(s, rank, count, e), NextCount(s, count, e);
      s := Process(g, s.(pq := rest), v);
    }
    FinalResult(g, origem, s, rank, count);
    dist, pred := s.dist, s.pred;
  }
}

=== FILE: examples.dfy ===
/** The two runs of `Main.main`: the undirected six-city network and the
    directed five-vertex graph, both searched from vertex 0. The distances and
    predecessors any shortest-path result must have are pinned down exactly,
    and with them the paths `imprimirCaminho` prints. */
module Examples {
  import opened Graphs
  import opened Results
  import opened Dijkstra

  /** `Main.java` lines 146-153: six cities and the first five two-way roads. */
  function FirstRoads(): (g: Graph)
    ensures g.NumVertices() == 6
  {
    var g := New(6);
    var g := AddBidirectional(g, 0, 1, 7);
    var g := AddBidirectional(g, 0, 2, 9);
    var g := AddBidirectional(g, 0, 5, 14);
    var g := AddBidirectional(g, 1, 2, 10);
    AddBidirectional(g, 1, 3, 15)
  }

  /** `Main.java` lines 154-157: the remaining four roads. */
  function LastRoads(g: Graph): (r: Graph)
    requires g.NumVertices() == 6
    ensures r.NumVertices() == 6
  {
    var g := AddBidirectional(g, 2, 3, 11);
    var g := AddBidirectional(g, 2, 5, 2);
    var g := AddBidirectional(g, 3, 4, 6);
    AddBidirectional(g, 4, 5, 9)
  }

  /** `Main.java` lines 146-157: the city network of the first example. */
  function Cities(): (g: Graph)
    ensures g.NumVertices() == 6
  {
    LastRoads(FirstRoads())
  }

  /** `Main.java` lines 164-175: five vertices and ten one-way edges. */
  function Directed(): (g: Graph)
    ensures g.NumVertices() == 5
  {
    var g := New(5);
    var g := AddEdge(g, 0, 1, 10);
    var g := AddEdge(g, 0, 4, 5);
    var g := AddEdge(g, 1, 2, 1);
    var g := AddEdge(g, 1, 4, 2);
    var g := AddEdge(g, 2, 3, 4);
    var g := AddEdge(g, 3, 0, 7);
    var g := AddEdge(g, 3, 2, 6);
    var g := AddEdge(g, 4, 1, 3);
    var g := AddEdge(g, 4, 2, 9);
    AddEdge(g, 4, 3, 2)
  }

  /** The adjacency lists `imprimir` shows for the city network. */
  const CityAdjacency: seq<seq<Edge>> := [
    [Edge(1, 7), Edge(2, 9), Edge(5, 14)],
    [Edge(0, 7), Edge(2, 10), Edge(3, 15)],
    [Edge(0, 9), Edge(1, 10), Edge(3, 11), Edge(5, 2)],
    [Edge(1, 15), Edge(2, 11), Edge(4, 6)],
    [Edge(3, 6), Edge(5, 9)],
    [Edge(0, 14), Edge(2, 2), Edge(4, 9)]]

  /** The adjacency lists `imprimir` shows for the directed graph. */
  const DirectedAdjacency: seq<seq<Edge>> := [
    [Edge(1, 10), Edge(4, 5)],
    [Edge(2, 1), Edge(4, 2)],
    [Edge(3, 4)],
    [Edge(0, 7), Edge(2, 6)],
    [Edge(1, 3), Edge(2, 9), Edge(3, 2)]]

  lemma FirstRoadsLists()
    ensures FirstRoads().adj == [
      [Edge(1, 7), Edge(2, 9), Edge(5, 14)],
      [Edge(0, 7), Edge(2, 10), Edge(3, 15)],
      [Edge(0, 9), Edge(1, 10)],
      [Edge(1, 15)],
      [],
      [Edge(0, 14)]]
  {
    var g0 := New(6);
    BidirectionalIsTwoEdges(g0, 0, 1, 7);
    var g1 := AddBidirectional(g0, 0, 1, 7);
    BidirectionalIsTwoEdges(g1, 0, 2, 9);
    var g2 := AddBidirectional(g1, 0, 2, 9);
    BidirectionalIsTwoEdges(g2, 0, 5, 14);
    var g3 := AddBidirectional(g2, 0, 5, 14);
    BidirectionalIsTwoEdges(g3, 1, 2, 10);
    var g4 := AddBidirectional(g3, 1, 2, 10);
    BidirectionalIsTwoEdges(g4, 1, 3, 15);
    var g5 := AddBidirectional(g4, 1, 3, 15);
    assert g5.adj[0] == [Edge(1, 7), Edge(2, 9), Edge(5, 14)];
    assert g5.adj[1] == [Edge(0, 7), Edge(2, 10), Edge(3, 15)];
    assert g5.adj[2] == [Edge(0, 9), Edge(1, 10)];
    assert g5.adj[3] == [Edge(1, 15)];
    assert g5.adj[4] == [];
    assert g5.adj[5] == [Edge(0, 14)];
  }

  lemma LastRoadsLists(g: Graph)
    requires g.adj == [
      [Edge(1, 7), Edge(2, 9), Edge(5, 14)],
      [Edge(0, 7), Edge(2, 10), Edge(3, 15)],
      [Edge(0, 9), Edge(1, 10)],
      [Edge(1, 15)],
      [],
      [Edge(0, 14)]]
    ensures LastRoads(g).adj == CityAdjacency
  {
    BidirectionalIsTwoEdges(g, 2, 3, 11);
    var g1 := AddBidirectional(g, 2, 3, 11);
    BidirectionalIsTwoEdges(g1, 2, 5, 2);
    var g2 := AddBidirectional(g1, 2, 5, 2);
    BidirectionalIsTwoEdges(g2, 3, 4, 6);
    var g3 := AddBidirectional(g2, 3, 4, 6);
    BidirectionalIsTwoEdges(g3, 4, 5, 9);
    var g4 := AddBidirectional(g3, 4, 5, 9);
    assert g4.adj[0] == [Edge(1, 7), Edge(2, 9), Edge(5, 14)];
    assert g4.adj[1] == [Edge(0, 7), Edge(2, 10), Edge(3, 15)];
    assert g4.adj[2] == [Edge(0, 9), Edge(1, 10), Edge(3, 11), Edge(5, 2)];
    assert g4.adj[3] == [Edge(1, 15), Edge(2, 11), Edge(4, 6)];
    assert g4.adj[4] == [Edge(3, 6), Edge(5, 9)];
    assert g4.adj[5] == [Edge(0, 14), Edge(2, 2), Edge(4, 9)];
  }

  /** Each road is stored in both directions, in the order of the calls. */
  lemma CitiesLists()
    ensures Cities().adj == CityAdjacency
  {
    FirstRoadsLists();
    LastRoadsLists(FirstRoads());
  }

  /** Each edge is stored at its origin, in the order of the calls. */
  lemma DirectedLists()
    ensures Directed().adj == DirectedAdjacency
  {
    var g0 := New(5);
    var g1 := AddEdge(g0, 0, 1, 10);
    var g2 := AddEdge(g1, 0, 4, 5);
    var g3 := AddEdge(g2, 1, 2, 1);
    var g4 := AddEdge(g3, 1, 4, 2);
    var g5 := AddEdge(g4, 2, 3, 4);
    var g6 := AddEdge(g5, 3, 0, 7);
    var g7 := AddEdge(g6, 3, 2, 6);
    var g8 := AddEdge(g7, 4, 1, 3);
    var g9 := AddEdge(g8, 4, 2, 9);
    var g10 := AddEdge(g9, 4, 3, 2);
    assert g10.adj[0] == [Edge(1, 10), Edge(4, 5)];
    assert g10.adj[1] == [Edge(2, 1), Edge(4, 2)];
    assert g10.adj[2] == [Edge(3, 4)];
    assert g10.adj[3] == [Edge(0, 7), Edge(2, 6)];
    assert g10.adj[4] == [Edge(1, 3), Edge(2, 9), Edge(3, 2)];
  }

  // ---------------------------------------------------------------------------
  // Example 1: the city network from city 0

  /** The distances printed for the city network. */
  const CityDistances: seq<Dist> := [Fin(0), Fin(7), Fin(9), Fin(20), Fin(20), Fin(11)]

  /** The predecessors behind the printed paths `0`, `0 → 1`, `0 → 2`,
      `0 → 2 → 3`, `0 → 2 → 5 → 4` and `0 → 2 → 5`. */
  const CityPredecessors: seq<int> := [NoPred, 0, 0, 2, 5, 2]

  /** Every road joins two cities and has a non-negative length. */
  lemma CityValid(g: Graph)
    requires g.adj == CityAdjacency
    ensures ValidGraph(g)
  {
  }

  /** The expected distances relax every road. */
  lemma CityRelaxed(g: Graph)
    requires g.adj == CityAdjacency
    ensures Triangle(g, CityDistances)
  {
  }

  /** The printed paths are walks of the printed weights. */
  lemma CityWalks(g: Graph)
    requires g.adj == CityAdjacency
    ensures IsWalk(g, [0], 0) && IsWalk(g, [0, 1], 7) && IsWalk(g, [0, 2], 9)
    ensures IsWalk(g, [0, 2, 3], 20) && IsWalk(g, [0, 2, 5, 4], 20) && IsWalk(g, [0, 2, 5], 11)
  {
    assert IsWalk(g, [0], 0);
    WalkExtend(g, [0], 0, 1, 7);
    WalkExtend(g, [0], 0, 2, 9);
    assert [0] + [1] == [0, 1] && [0] + [2] == [0, 2];
    WalkExtend(g, [0, 2], 9, 3, 11);
    WalkExtend(g, [0, 2], 9, 5, 2);
    assert [0, 2] + [3] == [0, 2, 3] && [0, 2] + [5] == [0, 2, 5];
    WalkExtend(g, [0, 2, 5], 11, 4, 9);
    assert [0, 2, 5] + [4] == [0, 2, 5, 4];
  }

  /** A relaxed assignment that is 0 at city 0 is at most the weight of each
      printed path. */
  lemma CityUpperBounds(g: Graph, dist: seq<Dist>)
    requires |dist| == 6 && |g.adj| == 6 && dist[0] == Fin(0) && Triangle(g, dist)
    requires IsWalk(g, [0, 1], 7) && IsWalk(g, [0, 2], 9) && IsWalk(g, [0, 2, 3], 20)
    requires IsWalk(g, [0, 2, 5, 4], 20) && IsWalk(g, [0, 2, 5], 11)
    ensures dist[1].Fin? && dist[1].d <= 7 && dist[2].Fin? && dist[2].d <= 9
    ensures dist[3].Fin? && dist[3].d <= 20 && dist[4].Fin? && dist[4].d <= 20
    ensures dist[5].Fin? && dist[5].d <= 11
  {
    WalkBound(g, 0, dist, [0, 1], 7);
    WalkBound(g, 0, dist, [0, 2], 9);
    WalkBound(g, 0, dist, [0, 2, 3], 20);
    WalkBound(g, 0, dist, [0, 2, 5, 4], 20);
    WalkBound(g, 0, dist, [0, 2, 5], 11);
  }

  /** Every shortest-path result on a graph where the printed distances relax
      every road and the printed paths are walks has the printed distances. */
  lemma CityDistancesForced(g: Graph, dist: seq<Dist>, pred: seq<int>)
    requires ShortestPaths(g, 0, dist, pred) && |g.adj| == 6 && Triangle(g, CityDistances)
    requires IsWalk(g, [0, 1], 7) && IsWalk(g, [0, 2], 9) && IsWalk(g, [0, 2, 3], 20)
    requires IsWalk(g, [0, 2, 5, 4], 20) && IsWalk(g, [0, 2, 5], 11)
    ensures dist == CityDistances
  {
    BelowRelaxed(g, 0, dist, pred, CityDistances);
    CityUpperBounds(g, dist);
    CityBoundsMeet(dist);
  }

  /** Bounds from both sides pin the distances down. */
  lemma CityBoundsMeet(dist: seq<Dist>)
    requires |dist| == 6 && dist[0] == Fin(0)
    requires forall v :: 0 <= v < 6 && dist[v].Fin? ==> CityDistances[v].Fin? && CityDistances[v].d <= dist[v].d
    requires dist[1].Fin? && dist[1].d <= 7 && dist[2].Fin? && dist[2].d <= 9
    requires dist[3].Fin? && dist[3].d <= 20 && dist[4].Fin? && dist[4].d <= 20
    requires dist[5].Fin? && dist[5].d <= 11
    ensures dist == CityDistances
  {
  }

  /** The only edge into `v` that is tight under `dist` comes from `u`. */
  ghost predicate TightOnlyFrom(g: Graph, dist: seq<Dist>, v: int, u: int)
    requires |dist| == |g.adj|
  {
    forall a, i ::
      && 0 <= a < |g.adj| && 0 <= i < |g.adj[a]| && g.adj[a][i].dest == v && dist[a].Fin?
      && 0 <= v < |dist| && dist[v].Fin? && dist[a].d + g.adj[a][i].weight == dist[v].d
      ==> a == u
  }

  /** In the city network each city but 0 has one tight incoming road. */
  lemma CityTight(g: Graph)
    requires g.adj == CityAdjacency
    ensures forall v :: 1 <= v < 6 ==> TightOnlyFrom(g, CityDistances, v, CityPredecessors[v])
  {
  }

  /** With the printed distances and one tight incoming road per city, the
      predecessors are forced too. */
  lemma CityPredecessorsForced(g: Graph, dist: seq<Dist>, pred: seq<int>)
    requires ShortestPaths(g, 0, dist, pred) && dist == CityDistances
    requires forall v :: 1 <= v < 6 ==> TightOnlyFrom(g, CityDistances, v, CityPredecessors[v])
    ensures pred == CityPredecessors
  {
    forall v | 1 <= v < 6
      ensures pred[v] == CityPredecessors[v]
    {
      PredTight(g, 0, dist, pred, v);
      var u := pred[v];
      var i :| 0 <= i < |g.adj[u]| && g.adj[u][i] == Edge(v, dist[v].d - dist[u].d);
      assert TightOnlyFrom(g, CityDistances, v, CityPredecessors[v]);
    }
  }

  /** The facts about the city network the lemmas above rely on, for the
      graph the calls of lines 146-157 build. */
  lemma CityFacts()
    ensures |Cities().adj| == 6 && ValidGraph(Cities()) && Triangle(Cities(), CityDistances)
    ensures IsWalk(Cities(), [0, 1], 7) && IsWalk(Cities(), [0, 2], 9) && IsWalk(Cities(), [0, 2, 3], 20)
    ensures IsWalk(Cities(), [0, 2, 5, 4], 20) && IsWalk(Cities(), [0, 2, 5], 11)
    ensures forall v :: 1 <= v < 6 ==> TightOnlyFrom(Cities(), CityDistances, v, CityPredecessors[v])
  {
    var g := Cities();
    CitiesLists();
    CityValid(g);
    CityRelaxed(g);
    CityWalks(g);
    CityTight(g);
  }

  /** Example 1: every shortest-path result for the city network from city 0
      has the printed distances and predecessors. */
  lemma CitiesResult(dist: seq<Dist>, pred: seq<int>)
    requires ShortestPaths(Cities(), 0, dist, pred)
    ensures dist == CityDistances && pred == CityPredecessors
  {
    CityFacts();
    CityDistancesForced(Cities(), dist, pred);
    CityPredecessorsForced(Cities(), dist, pred);
  }

  /** The paths `imprimirResultados` prints for cities 0 to 2. */
  lemma CityRoutesNear()
    ensures Route(CityDistances, CityPredecessors, 0) == Some([0])
    ensures Route(CityDistances, CityPredecessors, 1) == Some([0, 1])
    ensures Route(CityDistances, CityPredecessors, 2) == Some([0, 2])
  {
    assert PathTo(CityPredecessors, 0, 6) == Some([0]);
    assert PathTo(CityPredecessors, 0, 5) == Some([0]);
    assert [0] + [1] == [0, 1];
    assert PathTo(CityPredecessors, 1, 6) == Some([0, 1]);
    assert [0] + [2] == [0, 2];
    assert PathTo(CityPredecessors, 2, 6) == Some([0, 2]);
  }

  /** The paths `imprimirResultados` prints for cities 3 to 5. */
  lemma CityRoutesFar()
    ensures Route(CityDistances, CityPredecessors, 3) == Some([0, 2, 3])
    ensures Route(CityDistances, CityPredecessors, 4) == Some([0, 2, 5, 4])
    ensures Route(CityDistances, CityPredecessors, 5) == Some([0, 2, 5])
  {
    assert PathTo(CityPredecessors, 0, 4) == Some([0]);
    assert [0] + [2] == [0, 2];
    assert PathTo(CityPredecessors, 2, 5) == Some([0, 2]);
    assert [0, 2] + [3] == [0, 2, 3];
    assert PathTo(CityPredecessors, 3, 6) == Some([0, 2, 3]);
    assert PathTo(CityPredecessors, 0, 3) == Some([0]);
    assert [0] + [2] == [0, 2];
    assert PathTo(CityPredecessors, 2, 4) == Some([0, 2]);
    assert [0, 2] + [5] == [0, 2, 5];
    assert PathTo(CityPredecessors, 5, 5) == Some([0, 2, 5]);
    assert [0, 2, 5] + [4] == [0, 2, 5, 4];
    assert PathTo(CityPredecessors, 4, 6) == Some([0, 2, 5, 4]);
    assert [0, 2] + [5] == [0, 2, 5];
    assert PathTo(CityPredecessors, 5, 6) == Some([0, 2, 5]);
  }

  /** `cidades.dijkstra(0)`. */
  method RunCities() returns (dist: seq<Dist>, pred: seq<int>)
    ensures dist == CityDistances && pred == CityPredecessors
  {
    var g := Cities();
    CityFacts();
    dist, pred := Run(g, 0);
    CitiesResult(dist, pred);
  }

  // ---------------------------------------------------------------------------
  // Example 2: the directed graph from vertex 0

  /** The distances printed for the directed graph. */
  const DirectedDistances: seq<Dist> := [Fin(0), Fin(8), Fin(9), Fin(7), Fin(5)]

  /** The predecessors behind the printed paths `0`, `0 → 4 → 1`,
      `0 → 4 → 1 → 2`, `0 → 4 → 3` and `0 → 4`. */
  const DirectedPredecessors: seq<int> := [NoPred, 4, 1, 4, 0]

  /** Every edge leads to a vertex and has a non-negative weight. */
  lemma DirectedValid(g: Graph)
    requires g.adj == DirectedAdjacency
    ensures ValidGraph(g)
  {
  }

  /** The expected distances relax every edge. */
  lemma DirectedRelaxed(g: Graph)
    requires g.adj == DirectedAdjacency
    ensures Triangle(g, DirectedDistances)
  {
  }

  /** The printed paths are walks of the printed weights. */
  lemma DirectedWalks(g: Graph)
    requires g.adj == DirectedAdjacency
    ensures IsWalk(g, [0, 4], 5) && IsWalk(g, [0, 4, 1], 8) && IsWalk(g, [0, 4, 1, 2], 9) && IsWalk(g, [0, 4, 3], 7)
  {
    assert IsWalk(g, [0], 0);
    WalkExtend(g, [0], 0, 4, 5);
    assert [0] + [4] == [0, 4];
    WalkExtend(g, [0, 4], 5, 1, 3);
    WalkExtend(g, [0, 4], 5, 3, 2);
    assert [0, 4] + [1] == [0, 4, 1] && [0, 4] + [3] == [0, 4, 3];
    WalkExtend(g, [0, 4, 1], 8, 2, 1);
    assert [0, 4, 1] + [2] == [0, 4, 1, 2];
  }

  /** In the directed graph each vertex but 0 has one tight incoming edge. */
  lemma DirectedTight(g: Graph)
    requires g.adj == DirectedAdjacency
    ensures forall v :: 1 <= v < 5 ==> TightOnlyFrom(g, DirectedDistances, v, DirectedPredecessors[v])
  {
  }

  /** A relaxed assignment that is 0 at vertex 0 is at most the weight of each
      printed path. */
  lemma DirectedUpperBounds(g: Graph, dist: seq<Dist>)
    requires |dist| == 5 && |g.adj| == 5 && dist[0] == Fin(0) && Triangle(g, dist)
    requires IsWalk(g, [0, 4], 5) && IsWalk(g, [0, 4, 1], 8) && IsWalk(g, [0, 4, 1, 2], 9) && IsWalk(g, [0, 4, 3], 7)
    ensures dist[1].Fin? && dist[1].d <= 8 && dist[2].Fin? && dist[2].d <= 9
    ensures dist[3].Fin? && dist[3].d <= 7 && dist[4].Fin? && dist[4].d <= 5
  {
    WalkBound(g, 0, dist, [0, 4], 5);
    WalkBound(g, 0, dist, [0, 4, 1], 8);
    WalkBound(g, 0, dist, [0, 4, 1, 2], 9);
    WalkBound(g, 0, dist, [0, 4, 3], 7);
  }

  /** Bounds from both sides pin the distances down. */
  lemma DirectedBoundsMeet(dist: seq<Dist>)
    requires |dist| == 5 && dist[0] == Fin(0)
    requires forall v :: 0 <= v < 5 && dist[v].Fin? ==> DirectedDistances[v].Fin? && DirectedDistances[v].d <= dist[v].d
    requires dist[1].Fin? && dist[1].d <= 8 && dist[2].Fin? && dist[2].d <= 9
    requires dist[3].Fin? && dist[3].d <= 7 && dist[4].Fin? && dist[4].d <= 5
    ensures dist == DirectedDistances
  {
  }

  /** Every shortest-path result on a graph where the printed distances relax
      every edge and the printed paths are walks has the printed distances. */
  lemma DirectedDistancesForced(g: Graph, dist: seq<Dist>, pred: seq<int>)
    requires ShortestPaths(g, 0, dist, pred) && |g.adj| == 5 && Triangle(g, DirectedDistances)
    requires IsWalk(g, [0, 4], 5) && IsWalk(g, [0, 4, 1], 8) && IsWalk(g, [0, 4, 1, 2], 9) && IsWalk(g, [0, 4, 3], 7)
    ensures dist == DirectedDistances
  {
    BelowRelaxed(g, 0, dist, pred, DirectedDistances);
    DirectedUpperBounds(g, dist);
    DirectedBoundsMeet(dist);
  }

  /** With the printed distances and one tight incoming edge per vertex, the
      predecessors are forced too. */
  lemma DirectedPredecessorsForced(g: Graph, dist: seq<Dist>, pred: seq<int>)
    requires ShortestPaths(g, 0, dist, pred) && dist == DirectedDistances
    requires forall v :: 1 <= v < 5 ==> TightOnlyFrom(g, DirectedDistances, v, DirectedPredecessors[v])
    ensures pred == DirectedPredecessors
  {
    forall v | 1 <= v < 5
      ensures pred[v] == DirectedPredecessors[v]
    {
      PredTight(g, 0, dist, pred, v);
      var u := pred[v];
      var i :| 0 <= i < |g.adj[u]| && g.adj[u][i] == Edge(v, dist[v].d - dist[u].d);
      assert TightOnlyFrom(g, DirectedDistances, v, DirectedPredecessors[v]);
    }
  }

  /** The facts about the directed graph the lemmas above rely on, for the
      graph the calls of lines 164-175 build. */
  lemma DirectedFacts()
    ensures |Directed().adj| == 5 && ValidGraph(Directed()) && Triangle(Directed(), DirectedDistances)
    ensures IsWalk(Directed(), [0, 4], 5) && IsWalk(Directed(), [0, 4, 1], 8)
    ensures IsWalk(Directed(), [0, 4, 1, 2], 9) && IsWalk(Directed(), [0, 4, 3], 7)
    ensures forall v :: 1 <= v < 5 ==> TightOnlyFrom(Directed(), DirectedDistances, v, DirectedPredecessors[v])
  {
    var g := Directed();
    DirectedLists();
    DirectedValid(g);
    DirectedRelaxed(g);
    DirectedWalks(g);
    DirectedTight(g);
  }

  /** Example 2: every shortest-path result for the directed graph from
      vertex 0 has the printed distances and predecessors. */
  lemma DirectedResult(dist: seq<Dist>, pred: seq<int>)
    requires ShortestPaths(Directed(), 0, dist, pred)
    ensures dist == DirectedDistances && pred == DirectedPredecessors
  {
    DirectedFacts();
    DirectedDistancesForced(Directed(), dist, pred);
    DirectedPredecessorsForced(Directed(), dist, pred);
  }

  /** The paths `imprimirResultados` prints for the directed graph. */
  lemma DirectedRoutes()
    ensures Route(DirectedDistances, DirectedPredecessors, 0) == Some([0])
    ensures Route(DirectedDistances, DirectedPredecessors, 1) == Some([0, 4, 1])
    ensures Route(DirectedDistances, DirectedPredecessors, 2) == Some([0, 4, 1, 2])
    ensures Route(DirectedDistances, DirectedPredecessors, 3) == Some([0, 4, 3])
    ensures Route(DirectedDistances, DirectedPredecessors, 4) == Some([0, 4])
  {
    assert PathTo(DirectedPredecessors, 0, 5) == Some([0]);
    assert PathTo(DirectedPredecessors, 0, 3) == Some([0]);
    assert [0] + [4] == [0, 4];
    assert PathTo(DirectedPredecessors, 4, 4) == Some([0, 4]);
    assert [0, 4] + [1] == [0, 4, 1];
    assert PathTo(DirectedPredecessors, 1, 5) == Some([0, 4, 1]);
    assert PathTo(DirectedPredecessors, 0, 2) == Some([0]);
    assert [0] + [4] == [0, 4];
    assert PathTo(DirectedPredecessors, 4, 3) == Some([0, 4]);
    assert [0, 4] + [1] == [0, 4, 1];
    assert PathTo(DirectedPredecessors, 1, 4) == Some([0, 4, 1]);
    assert [0, 4, 1] + [2] == [0, 4, 1, 2];
    assert PathTo(DirectedPredecessors, 2, 5) == Some([0, 4, 1, 2]);
    assert [0, 4] + [3] == [0, 4, 3];
    assert PathTo(DirectedPredecessors, 3, 5) == Some([0, 4, 3]);
    assert PathTo(DirectedPredecessors, 0, 4) == Some([0]);
    assert [0] + [4] == [0, 4];
    assert PathTo(DirectedPredecessors, 4, 5) == Some([0, 4]);
  }

  /** `g2.dijkstra(0)`. */
  method RunDirected() returns (dist: seq<Dist>, pred: seq<int>)
    ensures dist == DirectedDistances && pred == DirectedPredecessors
  {
    var g := Directed();
    DirectedFacts();
    dist, pred := Run(g, 0);
    DirectedResult(dist, pred);
  }
}

=== FILE: graph.dfy ===
/** The weighted graph of `GrafoPonderado`: a fixed number of vertices, each
    owning the list of its outgoing edges (`Aresta`) in insertion order. */
module Graphs {

  /** One outgoing edge (`Aresta`): destination vertex and weight, both Java
      `int`s that are not validated when the edge is stored. */
  datatype Edge = Edge(dest: int, weight: int)

  /** `adj[v]` is the adjacency list of vertex `v`; the vertex count is `|adj|`. */
  datatype Graph = Graph(adj: seq<seq<Edge>>) {
    function NumVertices(): nat { |adj| }
  }

  /** The graph has an edge `u -> v` of weight `w` (possibly among parallel ones). */
  predicate HasEdge(g: Graph, u: int, v: int, w: int) {
    0 <= u < |g.adj| && Edge(v, w) in g.adj[u]
  }

  /** What the shortest-path computation relies on: every destination is a vertex
      of the graph and every weight is non-negative. */
  predicate ValidGraph(g: Graph) {
    forall u, i :: 0 <= u < |g.adj| && 0 <= i < |g.adj[u]| ==>
      0 <= g.adj[u][i].dest < |g.adj| && g.adj[u][i].weight >= 0
  }

  /** The constructor: `vertices` empty adjacency lists. */
  function New(vertices: nat): (g: Graph)
    ensures g.NumVertices() == vertices
    ensures forall u, v, w :: !HasEdge(g, u, v, w)
    ensures ValidGraph(g)
  {
    Graph(seq(vertices, _ => []))
  }

  /** `addAresta`: appends `Edge(destino, peso)` to the list of `origem`. */
  function AddEdge(g: Graph, origem: int, destino: int, peso: int): (r: Graph)
    requires 0 <= origem < |g.adj|
    ensures r.NumVertices() == g.NumVertices()
    ensures r.adj[origem] == g.adj[origem] + [Edge(destino, peso)]
    ensures forall u :: 0 <= u < |g.adj| && u != origem ==> r.adj[u] == g.adj[u]
  {
    Graph(g.adj[origem := g.adj[origem] + [Edge(destino, peso)]])
  }

  /** `addArestaBidirecional`: appends `(v2, peso)` to the list of `v1`, then
      `(v1, peso)` to the list of `v2` (a self-loop `v1 == v2` is stored twice). */
  function AddBidirectional(g: Graph, v1: int, v2: int, peso: int): (r: Graph)
    requires 0 <= v1 < |g.adj| && 0 <= v2 < |g.adj|
    ensures r.NumVertices() == g.NumVertices()
    ensures v1 != v2 ==> r.adj[v1] == g.adj[v1] + [Edge(v2, peso)] && r.adj[v2] == g.adj[v2] + [Edge(v1, peso)]
    ensures v1 == v2 ==> r.adj[v1] == g.adj[v1] + [Edge(v2, peso), Edge(v1, peso)]
    ensures forall u :: 0 <= u < |g.adj| && u != v1 && u != v2 ==> r.adj[u] == g.adj[u]
  {
    var a := g.adj[v1 := g.adj[v1] + [Edge(v2, peso)]];
    assert g.adj[v1] + [Edge(v2, peso)] + [Edge(v1, peso)] == g.adj[v1] + [Edge(v2, peso), Edge(v1, peso)];
    Graph(a[v2 := a[v2] + [Edge(v1, peso)]])
  }

  /** After `addAresta` the graph has exactly the old edges plus the new one. */
  lemma AddEdgeEdges(g: Graph, origem: int, destino: int, peso: int, u: int, v: int, w: int)
    requires 0 <= origem < |g.adj|
    ensures HasEdge(AddEdge(g, origem, destino, peso), u, v, w)
        <==> HasEdge(g, u, v, w) || (u == origem && v == destino && w == peso)
  {
    var r := AddEdge(g, origem, destino, peso);
    if 0 <= u < |g.adj| && u == origem {
      assert Edge(v, w) in r.adj[u] <==> Edge(v, w) in g.adj[u] || Edge(v, w) == Edge(destino, peso);
    }
  }

  /** Storing an edge keeps the graph valid exactly when the edge itself is valid. */
  lemma AddEdgeValid(g: Graph, origem: int, destino: int, peso: int)
    requires ValidGraph(g) && 0 <= origem < |g.adj|
    ensures ValidGraph(AddEdge(g, origem, destino, peso)) <==> 0 <= destino < |g.adj| && peso >= 0
  {
    var r := AddEdge(g, origem, destino, peso);
    if 0 <= destino < |g.adj| && peso >= 0 {
      forall u, i | 0 <= u < |r.adj| && 0 <= i < |r.adj[u]|
        ensures 0 <= r.adj[u][i].dest < |r.adj| && r.adj[u][i].weight >= 0
      {
        if u == origem && i == |g.adj[origem]| {
        } else {
          assert r.adj[u][i] == g.adj[u][i];
        }
      }
    } else {
      var i := |g.adj[origem]|;
      assert r.adj[origem][i] == Edge(destino, peso);
    }
  }

  /** The undirected insertion is the two directed insertions, `v1 -> v2` first. */
  lemma BidirectionalIsTwoEdges(g: Graph, v1: int, v2: int, peso: int)
    requires 0 <= v1 < |g.adj| && 0 <= v2 < |g.adj|
    ensures AddBidirectional(g, v1, v2, peso) == AddEdge(AddEdge(g, v1, v2, peso), v2, v1, peso)
  {
  }

  /** The undirected insertion adds exactly the two opposite edges. */
  lemma BidirectionalEdges(g: Graph, v1: int, v2: int, peso: int, u: int, v: int, w: int)
    requires 0 <= v1 < |g.adj| && 0 <= v2 < |g.adj|
    ensures HasEdge(AddBidirectional(g, v1, v2, peso), u, v, w)
        <==> HasEdge(g, u, v, w) || (u == v1 && v == v2 && w == peso) || (u == v2 && v == v1 && w == peso)
  {
    BidirectionalIsTwoEdges(g, v1, v2, peso);
    var g1 := AddEdge(g, v1, v2, peso);
    AddEdgeEdges(g, v1, v2, peso, u, v, w);
    AddEdgeEdges(g1, v2, v1, peso, u, v, w);
  }

  /** `p` is a walk in `g` (a non-empty vertex sequence, consecutive vertices joined
      by an edge) whose edge weights add up to `w`. Defined from the last edge back,
      the way the predecessor chain is read. */
  ghost predicate IsWalk(g: Graph, p: seq<int>, w: int)
    decreases |p|
  {
    if |p| == 0 then false
    else if |p| == 1 then 0 <= p[0] < |g.adj| && w == 0
    else
      var a, b := p[|p| - 2], p[|p| - 1];
      0 <= a < |g.adj| &&
      exists i :: 0 <= i < |g.adj[a]| && g.adj[a][i].dest == b && IsWalk(g, p[..|p| - 1], w - g.adj[a][i].weight)
  }

  /** A walk followed by one more edge is a walk. */
  lemma WalkExtend(g: Graph, p: seq<int>, w: int, v: int, q: int)
    requires IsWalk(g, p, w) && |p| > 0 && HasEdge(g, p[|p| - 1], v, q)
    ensures IsWalk(g, p + [v], w + q)
  {
    var p' := p + [v];
    assert p'[..|p'| - 1] == p;
    var a := p[|p| - 1];
    var i :| 0 <= i < |g.adj[a]| && g.adj[a][i] == Edge(v, q);
    assert g.adj[a][i].dest == v && IsWalk(g, p'[..|p'| - 1], (w + q) - g.adj[a][i].weight);
  }
}

=== FILE: invariant.dfy ===
/** The invariant of the main loop of `GrafoPonderado.dijkstra`, split into one
    predicate per concern, each over the arrays it depends on, and the lemmas
    that carry it through initialisation, a stale poll, a visit and each
    relaxation, and turn it into the result once the queue is empty.

    Every quantified piece ranges over a per-vertex (or per-entry) predicate,
    so that a fact about one vertex is only drawn from it where that vertex is
    named. */
module DijkstraInvariant {
  import opened Graphs
  import opened PriorityQueue
  import opened Results
  import opened DijkstraSteps

  // ---------------------------------------------------------------------------
  // The pieces of the invariant

  /** Before the first poll the queue holds only `(src, 0)`; from then on the
      source is visited. */
  ghost predicate SourceFirst(src: int, visited: seq<bool>, pq: multiset<Entry>)
    requires 0 <= src < |visited|
  {
    visited[src] || pq == multiset{Entry(src, 0)}
  }

  /** The entry `x` names a reached vertex, at or above its current distance. */
  ghost predicate EntrySound(dist: seq<Dist>, x: Entry) {
    0 <= x.vertex < |dist| && dist[x.vertex].Fin? && dist[x.vertex].d <= x.distance
  }

  ghost predicate QueueSound(dist: seq<Dist>, pq: multiset<Entry>) {
    forall x :: x in pq ==> EntrySound(dist, x)
  }

  /** Nothing queued is nearer than `b`. */
  ghost predicate QueueAbove(pq: multiset<Entry>, b: int) {
    forall x :: x in pq ==> b <= x.distance
  }

  /** A reached, unvisited `v` is queued with its current distance. */
  ghost predicate PendingAt(dist: seq<Dist>, visited: seq<bool>, pq: multiset<Entry>, v: int)
    requires |visited| == |dist| && 0 <= v < |dist|
  {
    !visited[v] && dist[v].Fin? ==> Entry(v, dist[v].d) in pq
  }

  ghost predicate Pending(dist: seq<Dist>, visited: seq<bool>, pq: multiset<Entry>)
    requires |visited| == |dist|
  {
    forall v :: 0 <= v < |dist| ==> PendingAt(dist, visited, pq, v)
  }

  /** A visited `v` is reached and no farther than anything still queued. */
  ghost predicate SettledAt(dist: seq<Dist>, visited: seq<bool>, pq: multiset<Entry>, v: int)
    requires |visited| == |dist| && 0 <= v < |dist|
  {
    visited[v] ==> dist[v].Fin? && QueueAbove(pq, dist[v].d)
  }

  ghost predicate SettledFirst(dist: seq<Dist>, visited: seq<bool>, pq: multiset<Entry>)
    requires |visited| == |dist|
  {
    forall v :: 0 <= v < |dist| ==> SettledAt(dist, visited, pq, v)
  }

  /** A visited `v` is no farther than `bound`. */
  ghost predicate WithinAt(dist: seq<Dist>, visited: seq<bool>, bound: nat, v: int)
    requires |visited| == |dist| && 0 <= v < |dist|
  {
    visited[v] ==> dist[v].Fin? && dist[v].d <= bound
  }

  ghost predicate VisitedWithin(dist: seq<Dist>, visited: seq<bool>, bound: nat)
    requires |visited| == |dist|
  {
    forall v :: 0 <= v < |dist| ==> WithinAt(dist, visited, bound, v)
  }

  /** The `i`-th edge out of `v` is relaxed. */
  ghost predicate Relaxed(g: Graph, dist: seq<Dist>, v: int, i: int)
    requires ValidGraph(g) && |dist| == |g.adj| && 0 <= v < |g.adj| && 0 <= i < |g.adj[v]|
  {
    var e := g.adj[v][i];
    dist[v].Fin? && dist[e.dest].Fin? && dist[e.dest].d <= dist[v].d + e.weight
  }

  /** Every edge out of a visited vertex is relaxed, except the edges of `u`
      from the `k`-th on. */
  ghost predicate RelaxedBut(g: Graph, dist: seq<Dist>, visited: seq<bool>, u: int, k: int)
    requires ValidGraph(g) && |dist| == |g.adj| && |visited| == |g.adj|
  {
    forall v, i {:trigger Relaxed(g, dist, v, i)} ::
      0 <= v < |g.adj| && 0 <= i < |g.adj[v]| && visited[v] && (v != u || i < k) ==> Relaxed(g, dist, v, i)
  }

  /** Every edge out of a visited vertex is relaxed (no vertex is a valid `u`). */
  ghost predicate AllRelaxed(g: Graph, dist: seq<Dist>, visited: seq<bool>)
    requires ValidGraph(g) && |dist| == |g.adj| && |visited| == |g.adj|
  {
    RelaxedBut(g, dist, visited, -1, 0)
  }

  /** The predecessor of `w` is a visited vertex joined to `w` by an edge whose
      weight is the difference of the two distances. */
  ghost predicate PredEdge(g: Graph, dist: seq<Dist>, pred: seq<int>, visited: seq<bool>, w: int)
    requires |dist| == |g.adj| && |pred| == |g.adj| && |visited| == |g.adj| && 0 <= w < |g.adj|
  {
    var u := pred[w];
    && 0 <= u < |g.adj| && visited[u] && dist[u].Fin? && dist[w].Fin?
    && dist[u].d <= dist[w].d && HasEdge(g, u, w, dist[w].d - dist[u].d)
  }

  /** A vertex `w` other than the source has a predecessor exactly when it is
      reached, and a predecessor link is a `PredEdge`. */
  ghost predicate PredAt(g: Graph, src: int, dist: seq<Dist>, pred: seq<int>, visited: seq<bool>, w: int)
    requires |dist| == |g.adj| && |pred| == |g.adj| && |visited| == |g.adj| && 0 <= w < |g.adj|
  {
    && (w != src ==> (pred[w] == NoPred <==> dist[w].Infinity?))
    && (pred[w] != NoPred ==> PredEdge(g, dist, pred, visited, w))
  }

  ghost predicate PredSound(g: Graph, src: int, dist: seq<Dist>, pred: seq<int>, visited: seq<bool>)
    requires |dist| == |g.adj| && |pred| == |g.adj| && |visited| == |g.adj|
  {
    forall w :: 0 <= w < |g.adj| ==> PredAt(g, src, dist, pred, visited, w)
  }

  /** A visited `v` has a rank below `count`, above that of its predecessor. */
  ghost predicate RankAt(visited: seq<bool>, pred: seq<int>, rank: seq<int>, count: nat, v: int)
    requires |pred| == |visited| && |rank| == |visited| && 0 <= v < |visited|
  {
    visited[v] ==> 0 <= rank[v] < count && (0 <= pred[v] < |visited| ==> rank[pred[v]] < rank[v])
  }

  /** `rank` is the (ghost) order of visits: `count` vertices are visited, each
      with a rank below `count`, and a visited vertex after its predecessor. */
  ghost predicate Ranked(visited: seq<bool>, pred: seq<int>, rank: seq<int>, count: nat)
    requires |pred| == |visited|
  {
    && |rank| == |visited| && count + CountUnvisited(visited) == |visited|
    && forall v :: 0 <= v < |visited| ==> RankAt(visited, pred, rank, count, v)
  }

  /** The invariant of the `while (!pq.isEmpty())` loop. */
  ghost predicate Inv(g: Graph, src: int, s: State, rank: seq<int>, count: nat) {
    && ValidGraph(g) && Shaped(s, |g.adj|) && 0 <= src < |g.adj|
    && s.dist[src] == Fin(0) && s.pred[src] == NoPred
    && SourceFirst(src, s.visited, s.pq)
    && QueueSound(s.dist, s.pq) && Pending(s.dist, s.visited, s.pq) && SettledFirst(s.dist, s.visited, s.pq)
    && AllRelaxed(g, s.dist, s.visited)
    && PredSound(g, src, s.dist, s.pred, s.visited)
    && Ranked(s.visited, s.pred, rank, count)
  }

  /** The invariant of the inner loop over the edges of the vertex `u` just
      visited, the first `k` of them relaxed. */
  ghost predicate Mid(g: Graph, src: int, s: State, rank: seq<int>, count: nat, u: int, k: int) {
    && ValidGraph(g) && Shaped(s, |g.adj|) && 0 <= src < |g.adj|
    && s.dist[src] == Fin(0) && s.pred[src] == NoPred && s.visited[src]
    && 0 <= u < |g.adj| && s.visited[u] && s.dist[u].Fin? && 0 <= k <= |g.adj[u]|
    && QueueSound(s.dist, s.pq) && Pending(s.dist, s.visited, s.pq) && SettledFirst(s.dist, s.visited, s.pq)
    && VisitedWithin(s.dist, s.visited, s.dist[u].d)
    && RelaxedBut(g, s.dist, s.visited, u, k)
    && PredSound(g, src, s.dist, s.pred, s.visited)
    && Ranked(s.visited, s.pred, rank, count)
  }

  // ---------------------------------------------------------------------------
  // Initialisation

  lemma StartInv(g: Graph, src: int)
    requires ValidGraph(g) && 0 <= src < |g.adj|
    ensures Inv(g, src, Start(|g.adj|, src), seq(|g.adj|, _ => 0), 0)
  {
    var s := Start(|g.adj|, src);
    CountUnvisitedNone(s.visited);
  }

  // ---------------------------------------------------------------------------
  // Removing a polled entry

  lemma QueueSoundRemove(dist: seq<Dist>, pq: multiset<Entry>, e: Entry)
    requires QueueSound(dist, pq)
    ensures QueueSound(dist, pq - multiset{e})
  {
  }

  lemma SettledFirstRemove(dist: seq<Dist>, visited: seq<bool>, pq: multiset<Entry>, e: Entry)
    requires |visited| == |dist| && SettledFirst(dist, visited, pq)
    ensures SettledFirst(dist, visited, pq - multiset{e})
  {
    forall v | 0 <= v < |dist|
      ensures SettledAt(dist, visited, pq - multiset{e}, v)
    {
      assert SettledAt(dist, visited, pq, v);
    }
  }

  lemma PendingRemove(dist: seq<Dist>, visited: seq<bool>, pq: multiset<Entry>, e: Entry)
    requires |visited| == |dist| && Pending(dist, visited, pq)
    requires 0 <= e.vertex < |dist| && visited[e.vertex]
    ensures Pending(dist, visited, pq - multiset{e})
  {
    forall v | 0 <= v < |dist|
      ensures PendingAt(dist, visited, pq - multiset{e}, v)
    {
      assert PendingAt(dist, visited, pq, v);
    }
  }

  /** Polling a stale entry keeps the invariant. */
  lemma StaleInv(g: Graph, src: int, s: State, rank: seq<int>, count: nat, e: Entry)
    requires Inv(g, src, s, rank, count) && e in s.pq
    requires 0 <= e.vertex < |g.adj| && s.visited[e.vertex]
    ensures Inv(g, src, s.(pq := s.pq - multiset{e}), rank, count)
  {
    assert s.visited[src];
    QueueSoundRemove(s.dist, s.pq, e);
    SettledFirstRemove(s.dist, s.visited, s.pq, e);
    PendingRemove(s.dist, s.visited, s.pq, e);
  }

  // ---------------------------------------------------------------------------
  // Visiting the polled vertex

  lemma PendingVisit(dist: seq<Dist>, visited: seq<bool>, pq: multiset<Entry>, e: Entry)
    requires |visited| == |dist| && 0 <= e.vertex < |dist| && Pending(dist, visited, pq)
    ensures Pending(dist, visited[e.vertex := true], pq - multiset{e})
  {
    var visited', pq' := visited[e.vertex := true], pq - multiset{e};
    forall v | 0 <= v < |dist|
      ensures PendingAt(dist, visited', pq', v)
    {
      assert PendingAt(dist, visited, pq, v);
    }
  }

  lemma SettledFirstVisit(dist: seq<Dist>, visited: seq<bool>, pq: multiset<Entry>, e: Entry)
    requires |visited| == |dist| && 0 <= e.vertex < |dist| && SettledFirst(dist, visited, pq)
    requires IsMin(e, pq) && dist[e.vertex] == Fin(e.distance)
    ensures SettledFirst(dist, visited[e.vertex := true], pq - multiset{e})
    ensures VisitedWithin(dist, visited[e.vertex := true], e.distance)
  {
    var visited', pq' := visited[e.vertex := true], pq - multiset{e};
    assert QueueAbove(pq', e.distance) by {
      forall x | x in pq'
        ensures e.distance <= x.distance
      {
        assert x in pq && CompareTo(e, x) <= 0;
      }
    }
    forall v | 0 <= v < |dist|
      ensures SettledAt(dist, visited', pq', v) && WithinAt(dist, visited', e.distance, v)
    {
      assert SettledAt(dist, visited, pq, v);
    }
  }

  lemma RelaxedVisit(g: Graph, dist: seq<Dist>, visited: seq<bool>, u: int)
    requires ValidGraph(g) && |dist| == |g.adj| && |visited| == |g.adj| && 0 <= u < |g.adj|
    requires AllRelaxed(g, dist, visited)
    ensures RelaxedBut(g, dist, visited[u := true], u, 0)
  {
  }

  lemma PredSoundVisit(g: Graph, src: int, dist: seq<Dist>, pred: seq<int>, visited: seq<bool>, u: int)
    requires |dist| == |g.adj| && |pred| == |g.adj| && |visited| == |g.adj| && 0 <= u < |g.adj|
    requires PredSound(g, src, dist, pred, visited)
    ensures PredSound(g, src, dist, pred, visited[u := true])
  {
    var visited' := visited[u := true];
    forall w | 0 <= w < |g.adj|
      ensures PredAt(g, src, dist, pred, visited', w)
    {
      assert PredAt(g, src, dist, pred, visited, w);
    }
  }

  lemma RankedVisit(g: Graph, src: int, dist: seq<Dist>, pred: seq<int>, visited: seq<bool>,
                    rank: seq<int>, count: nat, u: int)
    requires |dist| == |g.adj| && |pred| == |g.adj| && |visited| == |g.adj| && 0 <= u < |g.adj|
    requires !visited[u] && PredSound(g, src, dist, pred, visited) && Ranked(visited, pred, rank, count)
    ensures Ranked(visited[u := true], pred, rank[u := count], count + 1)
  {
    var visited', rank', count' := visited[u := true], rank[u := count], count + 1;
    CountUnvisitedMark(visited, u);
    forall w | 0 <= w < |visited|
      ensures RankAt(visited', pred, rank', count', w)
    {
      assert RankAt(visited, pred, rank, count, w);
      assert PredAt(g, src, dist, pred, visited, w);
      if 0 <= pred[w] < |visited| {
        assert RankAt(visited, pred, rank, count, pred[w]);
      }
    }
  }

  /** Polling the least entry of an unvisited vertex and marking the vertex
      visited starts the relaxation of its edges with `Mid`. */
  lemma VisitInv(g: Graph, src: int, s: State, rank: seq<int>, count: nat, e: Entry)
    requires Inv(g, src, s, rank, count) && IsMin(e, s.pq)
    requires 0 <= e.vertex < |g.adj| && !s.visited[e.vertex]
    ensures Mid(g, src, State(s.dist, s.pred, s.visited[e.vertex := true], s.pq - multiset{e}),
                rank[e.vertex := count], count + 1, e.vertex, 0)
  {
    var u := e.vertex;
    assert s.dist[u] == Fin(e.distance) by {
      assert EntrySound(s.dist, e);
      assert PendingAt(s.dist, s.visited, s.pq, u);
      assert CompareTo(e, Entry(u, s.dist[u].d)) <= 0;
    }
    assert s.visited[u := true][src] by {
      if !s.visited[src] {
        assert e in multiset{Entry(src, 0)};
      }
    }
    QueueSoundRemove(s.dist, s.pq, e);
    PendingVisit(s.dist, s.visited, s.pq, e);
    SettledFirstVisit(s.dist, s.visited, s.pq, e);
    RelaxedVisit(g, s.dist, s.visited, u);
    PredSoundVisit(g, src, s.dist, s.pred, s.visited, u);
    RankedVisit(g, src, s.dist, s.pred, s.visited, rank, count, u);
  }

  // ---------------------------------------------------------------------------
  // Relaxing one edge `u -> w` that fires, with new distance `nd`

  lemma QueueSoundRelax(dist: seq<Dist>, pq: multiset<Entry>, w: int, nd: nat)
    requires 0 <= w < |dist| && QueueSound(dist, pq) && Improves(nd, dist[w])
    ensures QueueSound(dist[w := Fin(nd)], pq + multiset{Entry(w, nd)})
  {
    forall x | x in pq + multiset{Entry(w, nd)}
      ensures EntrySound(dist[w := Fin(nd)], x)
    {
      if x != Entry(w, nd) {
        assert EntrySound(dist, x);
      }
    }
  }

  lemma PendingRelax(dist: seq<Dist>, visited: seq<bool>, pq: multiset<Entry>, w: int, nd: nat)
    requires |visited| == |dist| && 0 <= w < |dist| && Pending(dist, visited, pq)
    ensures Pending(dist[w := Fin(nd)], visited, pq + multiset{Entry(w, nd)})
  {
    var dist', pq' := dist[w := Fin(nd)], pq + multiset{Entry(w, nd)};
    forall v | 0 <= v < |dist|
      ensures PendingAt(dist', visited, pq', v)
    {
      assert PendingAt(dist, visited, pq, v);
    }
  }

  lemma QueueAboveAdd(pq: multiset<Entry>, b: int, x: Entry)
    requires QueueAbove(pq, b) && b <= x.distance
    ensures QueueAbove(pq + multiset{x}, b)
  {
  }

  lemma SettledRelax(dist: seq<Dist>, visited: seq<bool>, pq: multiset<Entry>, w: int, bound: nat, nd: nat)
    requires |visited| == |dist| && 0 <= w < |dist| && !visited[w] && bound <= nd
    requires SettledFirst(dist, visited, pq) && VisitedWithin(dist, visited, bound)
    ensures SettledFirst(dist[w := Fin(nd)], visited, pq + multiset{Entry(w, nd)})
    ensures VisitedWithin(dist[w := Fin(nd)], visited, bound)
  {
    var dist', pq' := dist[w := Fin(nd)], pq + multiset{Entry(w, nd)};
    forall v | 0 <= v < |dist|
      ensures SettledAt(dist', visited, pq', v)
      ensures WithinAt(dist', visited, bound, v)
    {
      assert SettledAt(dist, visited, pq, v) && WithinAt(dist, visited, bound, v);
      if visited[v] {
        QueueAboveAdd(pq, dist[v].d, Entry(w, nd));
      }
    }
  }

  lemma RelaxedRelax(g: Graph, dist: seq<Dist>, visited: seq<bool>, u: int, k: int, nd: nat)
    requires ValidGraph(g) && |dist| == |g.adj| && |visited| == |g.adj|
    requires 0 <= u < |g.adj| && 0 <= k < |g.adj[u]| && dist[u].Fin?
    requires var w := g.adj[u][k].dest;
      !visited[w] && nd == dist[u].d + g.adj[u][k].weight && Improves(nd, dist[w])
    requires RelaxedBut(g, dist, visited, u, k)
    ensures RelaxedBut(g, dist[g.adj[u][k].dest := Fin(nd)], visited, u, k + 1)
  {
    var w := g.adj[u][k].dest;
    var dist' := dist[w := Fin(nd)];
    forall v, i | 0 <= v < |g.adj| && 0 <= i < |g.adj[v]| && visited[v] && (v != u || i < k + 1)
      ensures Relaxed(g, dist', v, i)
    {
      if v != u || i < k {
        assert Relaxed(g, dist, v, i);
      }
    }
  }

  lemma PredSoundRelax(g: Graph, src: int, dist: seq<Dist>, pred: seq<int>, visited: seq<bool>, u: int, k: int, nd: nat)
    requires ValidGraph(g) && |dist| == |g.adj| && |pred| == |g.adj| && |visited| == |g.adj|
    requires 0 <= u < |g.adj| && visited[u] && dist[u].Fin? && 0 <= k < |g.adj[u]|
    requires var w := g.adj[u][k].dest;
      !visited[w] && w != src && nd == dist[u].d + g.adj[u][k].weight
    requires PredSound(g, src, dist, pred, visited)
    ensures PredSound(g, src, dist[g.adj[u][k].dest := Fin(nd)], pred[g.adj[u][k].dest := u], visited)
  {
    var w := g.adj[u][k].dest;
    var dist', pred' := dist[w := Fin(nd)], pred[w := u];
    forall x | 0 <= x < |g.adj|
      ensures PredAt(g, src, dist', pred', visited, x)
    {
      if x == w {
        assert g.adj[u][k] == Edge(w, dist'[w].d - dist'[u].d);
        assert PredEdge(g, dist', pred', visited, x);
      } else {
        assert PredAt(g, src, dist, pred, visited, x);
      }
    }
  }

  lemma RankedRelax(visited: seq<bool>, pred: seq<int>, rank: seq<int>, count: nat, w: int, u: int)
    requires |pred| == |visited| && 0 <= w < |visited| && !visited[w]
    requires Ranked(visited, pred, rank, count)
    ensures Ranked(visited, pred[w := u], rank, count)
  {
    var pred' := pred[w := u];
    forall v | 0 <= v < |visited|
      ensures RankAt(visited, pred', rank, count, v)
    {
      assert RankAt(visited, pred, rank, count, v);
    }
  }

  /** A relaxation that fires keeps `Mid`, one edge further on. */
  lemma RelaxFiresInv(g: Graph, src: int, s: State, rank: seq<int>, count: nat, u: int, k: int)
    requires Mid(g, src, s, rank, count, u, k) && k < |g.adj[u]|
    requires var e := g.adj[u][k];
      !s.visited[e.dest] && Improves(s.dist[u].d + e.weight, s.dist[e.dest])
    ensures var e := g.adj[u][k];
      var nd := s.dist[u].d + e.weight;
      Mid(g, src, State(s.dist[e.dest := Fin(nd)], s.pred[e.dest := u], s.visited, s.pq + multiset{Entry(e.dest, nd)}),
          rank, count, u, k + 1)
  {
    var e := g.adj[u][k];
    var w, nd := e.dest, s.dist[u].d + e.weight;
    assert w != u && w != src;
    QueueSoundRelax(s.dist, s.pq, w, nd);
    PendingRelax(s.dist, s.visited, s.pq, w, nd);
    SettledRelax(s.dist, s.visited, s.pq, w, s.dist[u].d, nd);
    RelaxedRelax(g, s.dist, s.visited, u, k, nd);
    PredSoundRelax(g, src, s.dist, s.pred, s.visited, u, k, nd);
    RankedRelax(s.visited, s.pred, rank, count, w, u);
  }

  /** A relaxation that does not fire finds its edge relaxed already. */
  lemma RelaxSkipsInv(g: Graph, src: int, s: State, rank: seq<int>, count: nat, u: int, k: int)
    requires Mid(g, src, s, rank, count, u, k) && k < |g.adj[u]|
    requires var e := g.adj[u][k];
      !(!s.visited[e.dest] && Improves(s.dist[u].d + e.weight, s.dist[e.dest]))
    ensures Mid(g, src, s, rank, count, u, k + 1)
  {
    var w := g.adj[u][k].dest;
    if s.visited[w] {
      assert WithinAt(s.dist, s.visited, s.dist[u].d, w);
    }
    assert Relaxed(g, s.dist, u, k);
  }

  /** Relaxing the `k`-th edge of `u` keeps `Mid`, one edge further on. */
  lemma RelaxInv(g: Graph, src: int, s: State, rank: seq<int>, count: nat, u: int, k: int)
    requires Mid(g, src, s, rank, count, u, k) && k < |g.adj[u]|
    ensures Mid(g, src, RelaxEdge(s, u, g.adj[u][k]), rank, count, u, k + 1)
  {
    var e := g.adj[u][k];
    if !s.visited[e.dest] && Improves(s.dist[u].d + e.weight, s.dist[e.dest]) {
      RelaxFiresInv(g, src, s, rank, count, u, k);
    } else {
      RelaxSkipsInv(g, src, s, rank, count, u, k);
    }
  }

  /** Relaxing the remaining edges of `u`, from the `k`-th on, ends in `Mid`
      with every edge of `u` done. */
  lemma {:induction false} RelaxAllInv(g: Graph, src: int, s: State, rank: seq<int>, count: nat, u: int, k: int)
    requires Mid(g, src, s, rank, count, u, k)
    ensures Mid(g, src, RelaxNeighbours(s, u, g.adj[u][k..]), rank, count, u, |g.adj[u]|)
    decreases |g.adj[u]| - k
  {
    if k < |g.adj[u]| {
      var edges := g.adj[u][k..];
      assert edges[0] == g.adj[u][k] && edges[1..] == g.adj[u][k + 1..];
      RelaxInv(g, src, s, rank, count, u, k);
      RelaxAllInv(g, src, RelaxEdge(s, u, g.adj[u][k]), rank, count, u, k + 1);
    }
  }

  lemma MidDone(g: Graph, src: int, s: State, rank: seq<int>, count: nat, u: int)
    requires 0 <= u < |g.adj| && Mid(g, src, s, rank, count, u, |g.adj[u]|)
    ensures Inv(g, src, s, rank, count)
  {
  }

  /** Relaxing every edge of the vertex `u` just visited ends in the invariant. */
  lemma VisitDone(g: Graph, src: int, s: State, rank: seq<int>, count: nat, u: int)
    requires 0 <= u < |g.adj| && Mid(g, src, s, rank, count, u, 0)
    ensures Inv(g, src, RelaxNeighbours(s, u, g.adj[u]), rank, count)
  {
    RelaxAllInv(g, src, s, rank, count, u, 0);
    assert g.adj[u][0..] == g.adj[u];
    MidDone(g, src, RelaxNeighbours(s, u, g.adj[u]), rank, count, u);
  }

  // ---------------------------------------------------------------------------
  // One iteration

  lemma ProcessVisits(g: Graph, s: State, e: Entry)
    requires ValidGraph(g) && Shaped(s, |g.adj|) && 0 <= e.vertex < |g.adj|
    requires s.dist[e.vertex].Fin? && !s.visited[e.vertex]
    ensures Process(g, s.(pq := s.pq - multiset{e}), e.vertex)
         == RelaxNeighbours(State(s.dist, s.pred, s.visited[e.vertex := true], s.pq - multiset{e}), e.vertex, g.adj[e.vertex])
  {
    assert s.(pq := s.pq - multiset{e}).(visited := s.visited[e.vertex := true])
        == State(s.dist, s.pred, s.visited[e.vertex := true], s.pq - multiset{e});
  }

  /** Visiting the vertex of the least entry (lines 78-91) keeps the invariant,
      the vertex taking the next rank. */
  lemma VisitStep(g: Graph, src: int, s: State, rank: seq<int>, count: nat, e: Entry)
    requires Inv(g, src, s, rank, count) && IsMin(e, s.pq)
    requires 0 <= e.vertex < |g.adj| && !s.visited[e.vertex]
    ensures Inv(g, src, Process(g, s.(pq := s.pq - multiset{e}), e.vertex), rank[e.vertex := count], count + 1)
  {
    var u := e.vertex;
    var s1 := State(s.dist, s.pred, s.visited[u := true], s.pq - multiset{e});
    VisitInv(g, src, s, rank, count, e);
    VisitDone(g, src, s1, rank[u := count], count + 1, u);
    ProcessVisits(g, s, e);
  }

  /** The rank and visit count after polling `e`. */
  ghost function NextRank(s: State, rank: seq<int>, count: nat, e: Entry): seq<int>
    requires 0 <= e.vertex < |s.visited| && |rank| == |s.visited|
  {
    if s.visited[e.vertex] then rank else rank[e.vertex := count]
  }

  ghost function NextCount(s: State, count: nat, e: Entry): nat
    requires 0 <= e.vertex < |s.visited|
  {
    if s.visited[e.vertex] then count else count + 1
  }

  /** One iteration of the loop: polling the least entry and processing its
      vertex keeps the invariant, and either leaves the visited vertices alone
      and shrinks the queue, or visits one more vertex. */
  lemma Iteration(g: Graph, src: int, s: State, rank: seq<int>, count: nat, e: Entry)
    requires Inv(g, src, s, rank, count) && IsMin(e, s.pq)
    ensures 0 <= e.vertex < |g.adj| && s.dist[e.vertex].Fin?
    ensures var r := Process(g, s.(pq := s.pq - multiset{e}), e.vertex);
      && Inv(g, src, r, NextRank(s, rank, count, e), NextCount(s, count, e))
      && (CountUnvisited(r.visited) < CountUnvisited(s.visited) ||
          (CountUnvisited(r.visited) == CountUnvisited(s.visited) && |r.pq| < |s.pq|))
  {
    assert EntrySound(s.dist, e);
    if s.visited[e.vertex] {
      StaleInv(g, src, s, rank, count, e);
    } else {
      VisitStep(g, src, s, rank, count, e);
    }
  }

  // ---------------------------------------------------------------------------
  // The end of the loop

  /** With an empty queue every reached vertex is visited. */
  lemma ReachedVisited(g: Graph, src: int, s: State, rank: seq<int>, count: nat, v: int)
    requires Inv(g, src, s, rank, count) && |s.pq| == 0
    requires 0 <= v < |g.adj| && s.dist[v].Fin?
    ensures s.visited[v]
  {
    assert PendingAt(s.dist, s.visited, s.pq, v);
    assert s.pq == multiset{};
    assert Entry(v, s.dist[v].d) !in s.pq;
  }

  /** Building one more step of a predecessor walk: the walk to `pred[v]`
      followed by its `PredEdge` is the walk to `v`. */
  lemma PredWalkStep(g: Graph, dist: seq<Dist>, pred: seq<int>, visited: seq<bool>, v: int, fuel: nat, p: seq<int>)
    requires |dist| == |g.adj| && |pred| == |g.adj| && |visited| == |g.adj| && 0 <= v < |g.adj| && fuel > 0
    requires pred[v] != NoPred && PredEdge(g, dist, pred, visited, v)
    requires PathTo(pred, pred[v], fuel - 1) == Some(p) && IsWalk(g, p, dist[pred[v]].d)
    ensures PathTo(pred, v, fuel) == Some(p + [v])
    ensures IsWalk(g, p + [v], dist[v].d)
  {
    var u := pred[v];
    WalkExtend(g, p, dist[u].d, v, dist[v].d - dist[u].d);
  }

  /** Once the queue is empty, the reached vertex `v`, of rank at most `fuel`,
      has a predecessor walk from the source of weight `dist[v]`. */
  lemma {:induction false} PredWalk(g: Graph, src: int, dist: seq<Dist>, pred: seq<int>, visited: seq<bool>,
                                    rank: seq<int>, count: nat, v: int, fuel: nat)
    requires |dist| == |g.adj| && |pred| == |g.adj| && |visited| == |g.adj| && 0 <= src < |g.adj|
    requires dist[src] == Fin(0) && PredSound(g, src, dist, pred, visited) && Ranked(visited, pred, rank, count)
    requires forall x :: 0 <= x < |g.adj| && dist[x].Fin? ==> visited[x]
    requires 0 <= v < |g.adj| && dist[v].Fin? && rank[v] <= fuel
    ensures PathTo(pred, v, fuel).Some?
    ensures PathTo(pred, v, fuel).value[0] == src
    ensures IsWalk(g, PathTo(pred, v, fuel).value, dist[v].d)
    decreases fuel
  {
    assert PredAt(g, src, dist, pred, visited, v);
    if pred[v] == NoPred {
      assert v == src;
    } else {
      var u := pred[v];
      assert RankAt(visited, pred, rank, count, v) && RankAt(visited, pred, rank, count, u);
      PredWalk(g, src, dist, pred, visited, rank, count, u, fuel - 1);
      PredWalkStep(g, dist, pred, visited, v, fuel, PathTo(pred, u, fuel - 1).value);
    }
  }

  /** The invariant with an empty queue is the promised result. */
  lemma FinalResult(g: Graph, src: int, s: State, rank: seq<int>, count: nat)
    requires Inv(g, src, s, rank, count) && |s.pq| == 0
    ensures ShortestPaths(g, src, s.dist, s.pred)
  {
    assert Triangle(g, s.dist) by {
      forall u, i | 0 <= u < |s.dist| && u < |g.adj| && s.dist[u].Fin? && 0 <= i < |g.adj[u]|
        ensures 0 <= g.adj[u][i].dest < |s.dist| && s.dist[g.adj[u][i].dest].Fin?
        ensures s.dist[g.adj[u][i].dest].d <= s.dist[u].d + g.adj[u][i].weight
      {
        ReachedVisited(g, src, s, rank, count, u);
        assert Relaxed(g, s.dist, u, i);
      }
    }
    forall v | 0 <= v < |g.adj|
      ensures v != src ==> (s.dist[v].Infinity? <==> s.pred[v] == NoPred)
    {
      assert PredAt(g, src, s.dist, s.pred, s.visited, v);
    }
    forall v | 0 <= v < |g.adj| && s.dist[v].Fin?
      ensures s.visited[v]
    {
      ReachedVisited(g, src, s, rank, count, v);
    }
    forall v | 0 <= v < |g.adj| && s.dist[v].Fin?
      ensures RouteRealises(g, src, s.dist, s.pred, v)
    {
      assert RankAt(s.visited, s.pred, rank, count, v);
      PredWalk(g, src, s.dist, s.pred, s.visited, rank, count, v, |s.pred|);
    }
  }
}

=== FILE: queue.dfy ===
/** The priority queue of `dijkstra`: a `java.util.PriorityQueue<No>` seen as a
    bag of `(vertex, distance)` entries from which a least entry is removed.
    Which of several equally distant entries comes out first is left open. */
module PriorityQueue {

  /** A queue entry (`No`): a vertex and the tentative distance it was queued with. */
  datatype Entry = Entry(vertex: int, distance: nat)

  /** `No.compareTo`: `Integer.compare` on the distances alone. */
  function CompareTo(a: Entry, b: Entry): (r: int)
    ensures r == -1 || r == 0 || r == 1
    ensures r < 0 <==> a.distance < b.distance
    ensures r > 0 <==> a.distance > b.distance
  {
    if a.distance < b.distance then -1
    else if a.distance == b.distance then 0
    else 1
  }

  /** `e` is a least entry of `pq` under `CompareTo`. */
  predicate IsMin(e: Entry, pq: multiset<Entry>) {
    e in pq && forall x :: x in pq ==> CompareTo(e, x) <= 0
  }

  /** Every non-empty queue has a least entry. */
  lemma {:induction false} MinExists(pq: multiset<Entry>)
    requires |pq| > 0
    ensures exists e :: IsMin(e, pq)
    decreases |pq|
  {
    var x :| x in pq;
    var rest := pq - multiset{x};
    if |rest| == 0 {
      assert pq == multiset{x};
      assert IsMin(x, pq);
    } else {
      MinExists(rest);
      var m :| IsMin(m, rest);
      assert pq == rest + multiset{x};
      if m.distance <= x.distance {
        assert IsMin(m, pq);
      } else {
        assert IsMin(x, pq);
      }
    }
  }

  /** `PriorityQueue.poll` on a non-empty queue: removes one least entry and
      returns it together with the remaining queue. */
  method Poll(pq: multiset<Entry>) returns (e: Entry, rest: multiset<Entry>)
    requires |pq| > 0
    ensures IsMin(e, pq)
    ensures rest == pq - multiset{e} && rest + multiset{e} == pq
    ensures |rest| == |pq| - 1
  {
    MinExists(pq);
    e :| IsMin(e, pq);
    rest := pq - multiset{e};
  }
}

=== FILE: results.dfy ===
/** What `dijkstra` leaves behind: the distance array (`distancias`), the
    predecessor array (`anterior`), the path `imprimirCaminho` prints from them,
    and what it means for the two arrays to describe shortest paths. */
module Results {
  import opened Graphs

  datatype Option<T> = None | Some(value: T)

  /** A tentative distance; `Infinity` stands for the `Integer.MAX_VALUE` sentinel. */
  datatype Dist = Infinity | Fin(d: nat)

  /** `-1`, the "no predecessor" marker of `anterior`. */
  const NoPred: int := -1

  /** `a <= b` in the order of distances extended with `Infinity` on top. */
  predicate AtMost(a: Dist, b: Dist) {
    b.Infinity? || (a.Fin? && a.d <= b.d)
  }

  /** `p` is the predecessor chain of `v`: vertex indices, ending at `v`,
      starting at a vertex without predecessor, each vertex's predecessor
      the one before it. */
  predicate IsChain(pred: seq<int>, p: seq<int>, v: int) {
    && |p| >= 1 && p[|p| - 1] == v
    && (forall i :: 0 <= i < |p| ==> 0 <= p[i] < |pred|)
    && pred[p[0]] == NoPred
    && (forall i :: 0 < i < |p| ==> pred[p[i]] == p[i - 1])
  }

  /** `imprimirCaminho`: the vertices printed for `destino`, as a sequence.
      Reaching a vertex whose predecessor is `-1` ends the walk back; the
      recursion is cut after `fuel` steps (`None`), and so is a predecessor that
      is not a vertex index. */
  function PathTo(pred: seq<int>, destino: int, fuel: nat): (r: Option<seq<int>>)
    requires 0 <= destino < |pred|
    ensures r.Some? ==> |r.value| >= 1 && |r.value| <= fuel + 1
    ensures r.Some? ==> forall i :: 0 <= i < |r.value| ==> 0 <= r.value[i] < |pred|
    ensures r.Some? ==> r.value[|r.value| - 1] == destino && pred[r.value[0]] == NoPred
    ensures r.Some? ==> forall i :: 0 < i < |r.value| ==> pred[r.value[i]] == r.value[i - 1]
    decreases fuel
  {
    if pred[destino] == NoPred then Some([destino])
    else if fuel == 0 || !(0 <= pred[destino] < |pred|) then None
    else
      match PathTo(pred, pred[destino], fuel - 1)
      case None => None
      case Some(p) => Some(p + [destino])
  }

  /** The per-vertex report of `imprimirResultados`: no path for a vertex at
      distance infinity ("Inalcançável"), otherwise the predecessor walk. */
  function Route(dist: seq<Dist>, pred: seq<int>, v: int): (r: Option<seq<int>>)
    requires |dist| == |pred| && 0 <= v < |dist|
    ensures dist[v].Infinity? ==> r.None?
    ensures r.Some? ==> IsChain(pred, r.value, v)
  {
    if dist[v].Infinity? then None else PathTo(pred, v, |pred|)
  }

  /** A chain never repeats a vertex. */
  lemma {:induction false} ChainDistinct(pred: seq<int>, p: seq<int>, v: int, i: int, j: int)
    requires IsChain(pred, p, v) && 0 <= i < j < |p|
    ensures p[i] != p[j]
    decreases i
  {
    if i == 0 {
      // the first vertex has no predecessor, every later one has a vertex
      assert pred[p[j]] == p[j - 1] && 0 <= p[j - 1];
    } else if p[i] == p[j] {
      assert p[i - 1] == pred[p[i]] == pred[p[j]] == p[j - 1];
      ChainDistinct(pred, p, v, i - 1, j - 1);
    }
  }

  /** Distinct values below `n` are at most `n` many. */
  lemma {:induction false} DistinctBounded(p: seq<int>, n: nat)
    requires forall i :: 0 <= i < |p| ==> 0 <= p[i] < n
    requires forall i, j :: 0 <= i < j < |p| ==> p[i] != p[j]
    ensures |p| <= n
    decreases |p|
  {
    if |p| > 0 {
      assert 0 <= p[0] < n;
      var x := p[|p| - 1];
      // the values of `p` but its last, with `n - 1` renamed to `x`
      var q := seq(|p| - 1, i requires 0 <= i < |p| - 1 => if p[i] == n - 1 then x else p[i]);
      forall i | 0 <= i < |q|
        ensures 0 <= q[i] < n - 1
      {
        assert p[i] != x;
      }
      forall i, j | 0 <= i < j < |q|
        ensures q[i] != q[j]
      {
        assert p[i] != p[j] && p[i] != x && p[j] != x;
      }
      DistinctBounded(q, n - 1);
    }
  }

  /** Every chain has at most one vertex per index. */
  lemma ChainShort(pred: seq<int>, p: seq<int>, v: int)
    requires IsChain(pred, p, v)
    ensures |p| <= |pred|
  {
    forall i, j | 0 <= i < j < |p|
      ensures p[i] != p[j]
    {
      ChainDistinct(pred, p, v, i, j);
    }
    DistinctBounded(p, |pred|);
  }

  /** `imprimirCaminho` prints the whole chain of `destino` when the
      recursion has room for it. */
  lemma {:induction false} PathToComplete(pred: seq<int>, destino: int, fuel: nat, p: seq<int>)
    requires 0 <= destino < |pred| && IsChain(pred, p, destino) && |p| <= fuel + 1
    ensures PathTo(pred, destino, fuel) == Some(p)
    decreases fuel
  {
    if |p| == 1 {
      assert p == [destino];
    } else {
      var q := p[..|p| - 1];
      assert pred[destino] == q[|q| - 1];
      assert IsChain(pred, q, pred[destino]);
      PathToComplete(pred, pred[destino], fuel - 1, q);
      assert p == q + [destino];
    }
  }

  /** A vertex at a finite distance whose predecessors lead back to a vertex
      without predecessor gets that chain printed as its path. */
  lemma RouteComplete(dist: seq<Dist>, pred: seq<int>, v: int, p: seq<int>)
    requires |dist| == |pred| && 0 <= v < |dist| && dist[v].Fin? && IsChain(pred, p, v)
    ensures Route(dist, pred, v) == Some(p)
  {
    ChainShort(pred, p, v);
    PathToComplete(pred, v, |pred|, p);
  }

  /** Every edge leaving a reached vertex is relaxed: `dist[w] <= dist[u] + p`. */
  ghost predicate Triangle(g: Graph, dist: seq<Dist>) {
    forall u, i :: 0 <= u < |dist| && u < |g.adj| && dist[u].Fin? && 0 <= i < |g.adj[u]| ==>
      var e := g.adj[u][i];
      0 <= e.dest < |dist| && dist[e.dest].Fin? && dist[e.dest].d <= dist[u].d + e.weight
  }

  /** The reported route to `v` is a walk from `src` to `v` of weight `dist[v]`. */
  ghost predicate RouteRealises(g: Graph, src: int, dist: seq<Dist>, pred: seq<int>, v: int)
    requires |dist| == |pred| && 0 <= v < |dist| && dist[v].Fin?
  {
    var r := Route(dist, pred, v);
    r.Some? && r.value[0] == src && IsWalk(g, r.value, dist[v].d)
  }

  /** What a finished run guarantees about `distancias` and `anterior`. */
  ghost predicate ShortestPaths(g: Graph, src: int, dist: seq<Dist>, pred: seq<int>) {
    && |dist| == |g.adj| && |pred| == |g.adj| && 0 <= src < |g.adj|
    && dist[src] == Fin(0) && pred[src] == NoPred
    // a vertex other than the source has a predecessor exactly when it was reached
    && (forall v :: 0 <= v < |dist| && v != src ==> (dist[v].Infinity? <==> pred[v] == NoPred))
    && Triangle(g, dist)
    && (forall v :: 0 <= v < |dist| && dist[v].Fin? ==> RouteRealises(g, src, dist, pred, v))
  }

  /** A distance assignment that is 0 at `src` and relaxes every edge out of a
      reached vertex is a lower bound on the weight of every walk from `src`. */
  lemma {:induction false} WalkBound(g: Graph, src: int, dist: seq<Dist>, p: seq<int>, w: int)
    requires |dist| == |g.adj| && 0 <= src < |dist| && dist[src] == Fin(0) && Triangle(g, dist)
    requires IsWalk(g, p, w) && p[0] == src
    ensures 0 <= p[|p| - 1] < |dist| && dist[p[|p| - 1]].Fin? && dist[p[|p| - 1]].d <= w
    decreases |p|
  {
    if |p| > 1 {
      var a, b := p[|p| - 2], p[|p| - 1];
      var i :| 0 <= i < |g.adj[a]| && g.adj[a][i].dest == b && IsWalk(g, p[..|p| - 1], w - g.adj[a][i].weight);
      WalkBound(g, src, dist, p[..|p| - 1], w - g.adj[a][i].weight);
    }
  }

  /** Every reached vertex is at the least weight of any walk from the source,
      and the vertices left at infinity are exactly those no walk reaches. */
  lemma DistanceIsMinimum(g: Graph, src: int, dist: seq<Dist>, pred: seq<int>, v: int)
    requires ShortestPaths(g, src, dist, pred) && 0 <= v < |dist|
    ensures dist[v].Fin? <==> exists p, w :: IsWalk(g, p, w) && p[0] == src && p[|p| - 1] == v
    ensures forall p, w :: IsWalk(g, p, w) && p[0] == src && p[|p| - 1] == v ==> dist[v].Fin? && dist[v].d <= w
  {
    forall p, w | IsWalk(g, p, w) && p[0] == src && p[|p| - 1] == v
      ensures dist[v].Fin? && dist[v].d <= w
    {
      WalkBound(g, src, dist, p, w);
    }
    if dist[v].Fin? {
      assert RouteRealises(g, src, dist, pred, v);
      var p := Route(dist, pred, v).value;
      assert IsWalk(g, p, dist[v].d) && p[0] == src && p[|p| - 1] == v;
    }
  }

  /** Any assignment that is 0 at the source and relaxes every edge out of a
      reached vertex lies below the shortest distances: they are the largest
      such assignment. */
  lemma BelowRelaxed(g: Graph, src: int, dist: seq<Dist>, pred: seq<int>, bound: seq<Dist>)
    requires ShortestPaths(g, src, dist, pred)
    requires |bound| == |g.adj| && bound[src] == Fin(0) && Triangle(g, bound)
    ensures forall v :: 0 <= v < |dist| && dist[v].Fin? ==> bound[v].Fin? && bound[v].d <= dist[v].d
  {
    forall v | 0 <= v < |dist| && dist[v].Fin?
      ensures bound[v].Fin? && bound[v].d <= dist[v].d
    {
      assert RouteRealises(g, src, dist, pred, v);
      WalkBound(g, src, bound, Route(dist, pred, v).value, dist[v].d);
    }
  }

  /** The route reported for the source itself is the one-vertex path `[src]`. */
  lemma SourceRoute(g: Graph, src: int, dist: seq<Dist>, pred: seq<int>)
    requires ShortestPaths(g, src, dist, pred)
    ensures Route(dist, pred, src) == Some([src])
  {
  }

  /** The last edge of a walk of weight `dist[b]` from the source to `b` is
      tight, when `dist` relaxes every edge and is a lower bound on walks. */
  lemma LastEdgeTight(g: Graph, src: int, dist: seq<Dist>, q: seq<int>)
    requires |dist| == |g.adj| && 0 <= src < |dist| && dist[src] == Fin(0) && Triangle(g, dist)
    requires |q| >= 2 && q[0] == src && 0 <= q[|q| - 1] < |dist| && dist[q[|q| - 1]].Fin?
    requires IsWalk(g, q, dist[q[|q| - 1]].d)
    ensures var a, b := q[|q| - 2], q[|q| - 1];
      0 <= a < |dist| && dist[a].Fin? && HasEdge(g, a, b, dist[b].d - dist[a].d)
  {
    var a, b := q[|q| - 2], q[|q| - 1];
    var i :| 0 <= i < |g.adj[a]| && g.adj[a][i].dest == b && IsWalk(g, q[..|q| - 1], dist[b].d - g.adj[a][i].weight);
    WalkBound(g, src, dist, q[..|q| - 1], dist[b].d - g.adj[a][i].weight);
    assert g.adj[a][i] == Edge(b, dist[b].d - dist[a].d);
  }

  /** Every predecessor link is a tight edge: `pred[v]` is a reached vertex with
      an edge to `v` whose weight is exactly `dist[v] - dist[pred[v]]`. */
  lemma PredTight(g: Graph, src: int, dist: seq<Dist>, pred: seq<int>, v: int)
    requires ShortestPaths(g, src, dist, pred) && 0 <= v < |dist| && pred[v] != NoPred
    ensures 0 <= pred[v] < |dist| && dist[pred[v]].Fin? && dist[v].Fin?
    ensures HasEdge(g, pred[v], v, dist[v].d - dist[pred[v]].d)
  {
    assert RouteRealises(g, src, dist, pred, v);
    var q := Route(dist, pred, v).value;
    assert q[|q| - 1] == v && pred[q[0]] == NoPred;
    LastEdgeTight(g, src, dist, q);
  }

  /** Two results for the same graph and source have the same distances: the
      order in which equally distant entries leave the queue does not matter,
      and running the computation twice gives the same distances. */
  lemma DistancesUnique(g: Graph, src: int, dist1: seq<Dist>, pred1: seq<int>, dist2: seq<Dist>, pred2: seq<int>)
    requires ShortestPaths(g, src, dist1, pred1) && ShortestPaths(g, src, dist2, pred2)
    ensures dist1 == dist2
  {
    forall v | 0 <= v < |dist1|
      ensures dist1[v] == dist2[v]
    {
      if dist1[v].Fin? {
        assert RouteRealises(g, src, dist1, pred1, v);
        var p := Route(dist1, pred1, v).value;
        WalkBound(g, src, dist2, p, dist1[v].d);
      }
      if dist2[v].Fin? {
        assert RouteRealises(g, src, dist2, pred2, v);
        var p := Route(dist2, pred2, v).value;
        WalkBound(g, src, dist1, p, dist2[v].d);
      }
    }
  }
}

=== FILE: steps.dfy ===
/** The state of `GrafoPonderado.dijkstra` and the steps of its main loop:
    initialisation, relaxation of one edge, of all edges of a vertex, and the
    processing of a polled vertex. */
module DijkstraSteps {
  import opened Graphs
  import opened PriorityQueue
  import opened Results

  /** The local state of one run: `distancias`, `anterior`, `visitado` and `pq`. */
  datatype State = State(dist: seq<Dist>, pred: seq<int>, visited: seq<bool>, pq: multiset<Entry>)

  /** All three arrays have one slot per vertex. */
  predicate Shaped(s: State, n: nat) {
    |s.dist| == n && |s.pred| == n && |s.visited| == n
  }

  /** The number of unvisited vertices. */
  function CountUnvisited(b: seq<bool>): (c: nat)
    ensures c <= |b|
  {
    if |b| == 0 then 0 else CountUnvisited(b[..|b| - 1]) + (if b[|b| - 1] then 0 else 1)
  }

  lemma {:induction false} CountUnvisitedNone(b: seq<bool>)
    requires forall i :: 0 <= i < |b| ==> !b[i]
    ensures CountUnvisited(b) == |b|
  {
    if |b| > 0 {
      CountUnvisitedNone(b[..|b| - 1]);
    }
  }

  /** Marking one unvisited vertex visited removes exactly one unvisited vertex. */
  lemma {:induction false} CountUnvisitedMark(b: seq<bool>, i: int)
    requires 0 <= i < |b| && !b[i]
    ensures CountUnvisited(b[i := true]) == CountUnvisited(b) - 1
  {
    var b' := b[i := true];
    if i == |b| - 1 {
      assert b'[..|b'| - 1] == b[..|b| - 1];
    } else {
      assert b'[..|b'| - 1] == b[..|b| - 1][i := true];
      CountUnvisitedMark(b[..|b| - 1], i);
    }
  }

  /** The set-up in `Main.java` lines 57-71: every distance infinite but the
      source's 0, no predecessors, nothing visited, and the queue holding
      `(origem, 0)` alone. */
  function Start(n: nat, origem: int): (s: State)
    requires 0 <= origem < n
    ensures Shaped(s, n)
    ensures s.dist[origem] == Fin(0)
    ensures forall v :: 0 <= v < n && v != origem ==> s.dist[v] == Infinity
    ensures forall v :: 0 <= v < n ==> s.pred[v] == NoPred && !s.visited[v]
    ensures s.pq == multiset{Entry(origem, 0)}
  {
    State(seq(n, v => if v == origem then Fin(0) else Infinity),
          seq(n, _ => NoPred), seq(n, _ => false), multiset{Entry(origem, 0)})
  }

  /** `distancias[v] + peso < distancias[viz]`, with infinity above every sum. */
  predicate Improves(candidate: nat, current: Dist) {
    current.Infinity? || candidate < current.d
  }

  /** The loop body of `Main.java` lines 82-90: relaxation of the edge `e` out
      of the vertex `u` being visited. */
  function RelaxEdge(s: State, u: int, e: Edge): (r: State)
    requires Shaped(s, |s.dist|) && 0 <= u < |s.dist| && s.dist[u].Fin?
    requires 0 <= e.dest < |s.dist| && e.weight >= 0
    ensures Shaped(r, |s.dist|) && r.visited == s.visited && s.pq <= r.pq
    // no distance grows, and visited vertices and other vertices are untouched
    ensures forall v :: 0 <= v < |s.dist| ==> AtMost(r.dist[v], s.dist[v])
    ensures forall v :: 0 <= v < |s.dist| && (s.visited[v] || v != e.dest) ==>
      r.dist[v] == s.dist[v] && r.pred[v] == s.pred[v]
    ensures r.dist[u] == s.dist[u]
    // afterwards the edge is relaxed, if it leads to an unvisited vertex
    ensures !s.visited[e.dest] ==> AtMost(r.dist[e.dest], Fin(s.dist[u].d + e.weight))
    // it fires exactly when the destination is unvisited and the new sum is smaller
    ensures r.dist[e.dest] != s.dist[e.dest] <==> !s.visited[e.dest] && Improves(s.dist[u].d + e.weight, s.dist[e.dest])
    // when it fires: new distance, predecessor `u`, and the new entry queued
    ensures r.dist[e.dest] != s.dist[e.dest] ==>
      && r.dist[e.dest] == Fin(s.dist[u].d + e.weight) && r.pred[e.dest] == u
      && r.pq == s.pq + multiset{Entry(e.dest, s.dist[u].d + e.weight)}
    // and when it does not fire, nothing changes
    ensures s.visited[e.dest] || !Improves(s.dist[u].d + e.weight, s.dist[e.dest]) ==> r == s
  {
    var nd := s.dist[u].d + e.weight;
    if !s.visited[e.dest] && Improves(nd, s.dist[e.dest]) then
      State(s.dist[e.dest := Fin(nd)], s.pred[e.dest := u], s.visited, s.pq + multiset{Entry(e.dest, nd)})
    else
      s
  }

  /** The loop of `Main.java` lines 81-91: relaxes the edges of `edges` in
      list order. */
  function RelaxNeighbours(s: State, u: int, edges: seq<Edge>): (r: State)
    requires Shaped(s, |s.dist|) && 0 <= u < |s.dist| && s.dist[u].Fin?
    requires forall i :: 0 <= i < |edges| ==> 0 <= edges[i].dest < |s.dist| && edges[i].weight >= 0
    ensures Shaped(r, |s.dist|) && r.visited == s.visited && r.dist[u] == s.dist[u] && s.pq <= r.pq
    ensures forall v :: 0 <= v < |s.dist| ==> AtMost(r.dist[v], s.dist[v])
    ensures forall v :: 0 <= v < |s.dist| && s.visited[v] ==> r.dist[v] == s.dist[v] && r.pred[v] == s.pred[v]
    ensures forall i :: 0 <= i < |edges| && !s.visited[edges[i].dest] ==>
      AtMost(r.dist[edges[i].dest], Fin(s.dist[u].d + edges[i].weight))
    decreases |edges|
  {
    if |edges| == 0 then s
    else RelaxNeighbours(RelaxEdge(s, u, edges[0]), u, edges[1..])
  }

  /** What the loop over the edges of `u` does to one vertex `v`: a vertex
      whose distance did not change keeps its predecessor; a vertex whose
      distance changed has predecessor `u` and an entry in the queue at its
      new distance. */
  lemma {:induction false} RelaxNeighboursChanges(s: State, u: int, edges: seq<Edge>, v: int)
    requires Shaped(s, |s.dist|) && 0 <= u < |s.dist| && s.dist[u].Fin?
    requires forall i :: 0 <= i < |edges| ==> 0 <= edges[i].dest < |s.dist| && edges[i].weight >= 0
    requires 0 <= v < |s.dist|
    ensures var r := RelaxNeighbours(s, u, edges);
      r.dist[v] == s.dist[v] ==> r.pred[v] == s.pred[v]
    ensures var r := RelaxNeighbours(s, u, edges);
      r.dist[v] != s.dist[v] ==> r.pred[v] == u && r.dist[v].Fin? && Entry(v, r.dist[v].d) in r.pq
    decreases |edges|
  {
    if |edges| > 0 {
      var s1 := RelaxEdge(s, u, edges[0]);
      var r := RelaxNeighbours(s1, u, edges[1..]);
      assert r == RelaxNeighbours(s, u, edges);
      RelaxNeighboursChanges(s1, u, edges[1..], v);
      assert AtMost(r.dist[v], s1.dist[v]) && AtMost(s1.dist[v], s.dist[v]);
      if s1.dist[v] != s.dist[v] && r.dist[v] == s1.dist[v] {
        assert Entry(v, s1.dist[v].d) in s1.pq;
      }
    }
  }

  /** A distance the loop over the edges of `u` changed is `dist[u]` plus the
      weight of a listed edge to that vertex: the edge returned as `i`. */
  lemma {:induction false} RelaxNeighboursValue(s: State, u: int, edges: seq<Edge>, v: int) returns (i: int)
    requires Shaped(s, |s.dist|) && 0 <= u < |s.dist| && s.dist[u].Fin?
    requires forall k :: 0 <= k < |edges| ==> 0 <= edges[k].dest < |s.dist| && edges[k].weight >= 0
    requires 0 <= v < |s.dist|
    ensures var r := RelaxNeighbours(s, u, edges);
      r.dist[v] != s.dist[v] ==>
        0 <= i < |edges| && edges[i].dest == v && r.dist[v] == Fin(s.dist[u].d + edges[i].weight)
    decreases |edges|
  {
    i := 0;
    if |edges| > 0 {
      var s1 := RelaxEdge(s, u, edges[0]);
      var r := RelaxNeighbours(s1, u, edges[1..]);
      assert r == RelaxNeighbours(s, u, edges);
      var j := RelaxNeighboursValue(s1, u, edges[1..], v);
      if r.dist[v] != s1.dist[v] {
        i := j + 1;
        assert edges[i] == edges[1..][j];
      }
    }
  }

  /** Every entry the loop over the edges of `u` adds to the queue is
      `(viz, dist[u] + peso)` for a listed edge: the edge returned as `i`. */
  lemma {:induction false} RelaxNeighboursQueue(s: State, u: int, edges: seq<Edge>, e: Entry) returns (i: int)
    requires Shaped(s, |s.dist|) && 0 <= u < |s.dist| && s.dist[u].Fin?
    requires forall k :: 0 <= k < |edges| ==> 0 <= edges[k].dest < |s.dist| && edges[k].weight >= 0
    requires e in RelaxNeighbours(s, u, edges).pq - s.pq
    ensures 0 <= i < |edges| && edges[i].dest == e.vertex && e.distance == s.dist[u].d + edges[i].weight
    decreases |edges|
  {
    assert |edges| > 0;
    var s1 := RelaxEdge(s, u, edges[0]);
    var r := RelaxNeighbours(s1, u, edges[1..]);
    assert r == RelaxNeighbours(s, u, edges);
    if e in r.pq - s1.pq {
      var j := RelaxNeighboursQueue(s1, u, edges[1..], e);
      i := j + 1;
      assert edges[i] == edges[1..][j];
    } else {
      // the entry was added by the first edge, so that relaxation fired
      assert s1.pq[e] > s.pq[e];
      i := 0;
    }
  }

  /** `Main.java` lines 75-91, after a poll of `v`: an already visited vertex leaves the state
      as it is; otherwise `v` is marked visited and its edges are relaxed. */
  function Process(g: Graph, s: State, v: int): (r: State)
    requires ValidGraph(g) && Shaped(s, |g.adj|) && 0 <= v < |g.adj| && s.dist[v].Fin?
    ensures Shaped(r, |g.adj|)
    ensures s.visited[v] ==> r == s
    ensures !s.visited[v] ==> r.visited == s.visited[v := true] && CountUnvisited(r.visited) < CountUnvisited(s.visited)
    ensures s.pq <= r.pq
    ensures forall x :: 0 <= x < |g.adj| ==> AtMost(r.dist[x], s.dist[x])
    // a vertex, once visited, keeps its distance and predecessor
    ensures forall x :: 0 <= x < |g.adj| && r.visited[x] ==> r.dist[x] == s.dist[x] && r.pred[x] == s.pred[x]
    ensures !s.visited[v] ==> forall i :: 0 <= i < |g.adj[v]| && !r.visited[g.adj[v][i].dest] ==>
      AtMost(r.dist[g.adj[v][i].dest], Fin(s.dist[v].d + g.adj[v][i].weight))
  {
    if s.visited[v] then s
    else
      CountUnvisitedMark(s.visited, v);
      RelaxNeighbours(s.(visited := s.visited[v := true]), v, g.adj[v])
  }

  /** What processing the polled vertex `v` does to one vertex `x`: a vertex
      whose distance did not change keeps its predecessor; a vertex whose
      distance changed has predecessor `v` and an entry in the queue at its
      new distance. */
  lemma ProcessChanges(g: Graph, s: State, v: int, x: int)
    requires ValidGraph(g) && Shaped(s, |g.adj|) && 0 <= v < |g.adj| && s.dist[v].Fin?
    requires 0 <= x < |g.adj|
    ensures var r := Process(g, s, v);
      r.dist[x] == s.dist[x] ==> r.pred[x] == s.pred[x]
    ensures var r := Process(g, s, v);
      r.dist[x] != s.dist[x] ==> r.pred[x] == v && r.dist[x].Fin? && Entry(x, r.dist[x].d) in r.pq
    ensures var r := Process(g, s, v);
      r.dist[x] != s.dist[x] ==> r.dist[x].Fin? && HasEdge(g, v, x, r.dist[x].d - s.dist[v].d)
  {
    if !s.visited[v] {
      var s' := s.(visited := s.visited[v := true]);
      RelaxNeighboursChanges(s', v, g.adj[v], x);
      var i := RelaxNeighboursValue(s', v, g.adj[v], x);
      var r := Process(g, s, v);
      if r.dist[x] != s.dist[x] {
        assert g.adj[v][i] == Edge(x, r.dist[x].d - s.dist[v].d);
      }
    }
  }

  /** Every entry processing `v` adds to the queue comes from an edge out of
      `v`: it is `(viz, dist[v] + peso)` for an edge `v -> viz` of weight `peso`. */
  lemma ProcessQueue(g: Graph, s: State, v: int, e: Entry)
    requires ValidGraph(g) && Shaped(s, |g.adj|) && 0 <= v < |g.adj| && s.dist[v].Fin?
    requires e in Process(g, s, v).pq - s.pq
    ensures HasEdge(g, v, e.vertex, e.distance - s.dist[v].d)
  {
    if !s.visited[v] {
      var s' := s.(visited := s.visited[v := true]);
      var i := RelaxNeighboursQueue(s', v, g.adj[v], e);
      assert g.adj[v][i] == Edge(e.vertex, e.distance - s.dist[v].d);
    }
  }
}
